=== FILE: README.md ===
# End-to-end encrypted video chat: a verified model

This project models the core of a browser video chat in which media is
encrypted end to end. It has four parts:

- **Relay server** (`lib/server.js`). Keeps a registry of chat rooms keyed
  by a short base58 id, each with the scrypt hash and salt of its password
  and its members in insertion order. It admits a connection through a
  first `start` or `join` request (answered 200, or 400/401/404/409/500 and
  closed). It then forwards `candidate`, `offer` and `answer` messages
  between members, stamping them with the sender's name.
- **Peer** (`lib/peer.js`). One session per remote participant. It holds
  a Diffie-Hellman key pair, and derives a 32-byte secret with HKDF-SHA256
  (RFC 5869) over the shared value. The HKDF info is the sorted pair of
  names joined by a comma. Three queues hold early events until the state
  they need exists: ICE candidates until a remote description, outbound
  senders and inbound track events until a secret.
- **Worker** (`lib/worker.js`). Per-frame AES-256-GCM. A sent frame
  becomes `nonce(16) || tag(16) || ciphertext`, and a received frame is
  split at those offsets and opened.
- **Client** (`lib/client.js`). The participant:
  - its peers, keyed by remote name, each given a worker round robin;
  - dispatch of relayed messages to the peers;
  - the initiator and responder halves of the handshake;
  - request/response correlation with the relay by request id.

Modules, one per concern: `Common` (bytes, `Option`, `Result`, slicing),
`Wire` (the JSON envelope as a datatype), `Server`, `Kdf`, `Peer`, `Frame`
and `Client`.

Each state change is a pure function from a state and an input to the new
state and the effects it makes: socket frames out, `postMessage` jobs,
`addIceCandidate` calls and `stream` events. Cryptographic and encoding
primitives are uninterpreted function fields of an environment datatype:
base58, scrypt, HMAC-SHA256, modp14 Diffie-Hellman, AES-GCM, base64 and
UTF-8. A proof relies only on the facts it states about them: a 32-byte
digest, a 16-byte tag, AEAD correctness, Diffie-Hellman agreement, and
base64 decoding undoing encoding. Randomness (chat-id bytes, salts,
nonces, key pairs), request ids and the local session descriptions the
browser produces are parameters.

## Model

| member | source | states |
|---|---|---|
| Server.Lookup | lib/server.js:103 | `conns.get(name)` finds a connection exactly when the name is a member, and the one found is registered under that name |
| Server.Without | lib/server.js:139 | the filtered member list holds exactly the names other than the joiner's |
| Server.WithoutAppended | lib/server.js:139 | filtering the joiner out of the list after it was appended gives back the membership before the join, in order |
| Server.ChooseChatId | lib/server.js:53-65 | a chat id is an unregistered base58 encoding of a 3-, 4- or 5-byte prefix of the random buffer; failure happens exactly when all three are taken |
| Server.GenChatId | lib/server.js:53-65 | the loop returns the shortest unregistered prefix encoding, and every shorter one is taken; it agrees with the reference choice |
| Server.SlowHash | lib/server.js:22-32 | a salt that is given is reused, and otherwise the new random bytes become the salt; the hash is scrypt over the UTF-8 password under the salt returned |
| Server.StartChat | lib/server.js:76-92 | start succeeds exactly when name and password are present and an id is free; the new chat is registered under a fresh id, with the requester as its only member and the password hashed under the new salt |
| Server.JoinChat | lib/server.js:94-118 | 404 exactly when the chat is unknown; 409 exactly when the name is taken; 401 exactly when the stored-salt hash differs; on success the joiner is appended and nothing else changes |
| Server.ConflictIgnoresPassword | lib/server.js:103-108 | a taken name is refused before the password is looked at, whatever password is sent |
| Server.NotFoundIgnoresCredentials | lib/server.js:96-101 | for an unknown chat neither the name nor the password changes the outcome |
| Server.JoinPrecheck | lib/server.js:94-106 | the checks before the await: continue exactly when the chat exists and the name is free, with 404 and 409 as above |
| Server.SetMember | lib/server.js:115 | a JavaScript `Map.set`: afterwards the name maps to the new connection; a new name is appended at the end, and an existing name is overwritten without growing the list |
| Server.SetMemberKeepsOthers | lib/server.js:115 | `Map.set` leaves every other name's connection as it was |
| Server.SetMemberInPlace | lib/server.js:115 | setting a name already present keeps every name in its insertion-order place |
| Server.JoinCommitAsWritten | lib/server.js:108-117 | the part after the await as written: admitted exactly when the password hash matches, and the name is set without checking the members again |
| Server.JoinCommit | lib/server.js:103-117 | the corrected commit: a name taken in the meantime gets 409, and an admitted joiner is appended under a name nobody else has |
| Server.JoinChatSplits | lib/server.js:94-118 | with no other join in between, joinChat equals its precheck followed by the corrected commit |
| Server.SameNameJoinsRace | lib/server.js:103-115 | two overlapping joins under one free name are both admitted as written, and the second takes over the first one's entry |
| Server.SameNameJoinRefused | lib/server.js:103-115 | with the corrected commit, the second of those joins is refused with 409 |
| Server.Respond | lib/server.js:17-20 | a response goes to the requesting connection and carries the request's id and the given code |
| Server.Fail | lib/server.js:43-49 | a handler that throws answers its connection with one 500 response without an id, closes it, and changes no chat |
| Server.First | lib/server.js:120-154 | a first frame gets exactly one response, on its own connection; the connection is closed exactly when it is not admitted; an admitted one gets 200 and is registered under its name in its chat; a refused one changes no chat; no other connection's phase changes |
| Server.Forward | lib/server.js:176-187 | a message is delivered only to the member named `to`, keeping its type and id, with `from` set to the sender's name; an unknown `to` gets 404; a message without data sends nothing |
| Server.Receive | lib/server.js:120-174 | only a connection's first frame changes the server's state; a closed connection gets no answer; every other connection keeps its phase, and only the receiving connection is ever closed |
| Server.Relay | lib/server.js:156-174 | in the relay phase an unparsable frame gets 400 and a type other than candidate/offer/answer gets 405, and no connection is ever closed |
| Server.StartPreservesValid | lib/server.js:76-92 | a start keeps every chat under its own id with unique member names, keeps every relaying connection registered under its name, and never removes a chat or a member, nor changes a chat's id, hash or salt |
| Server.JoinPreservesValid | lib/server.js:94-118 | a join keeps the same invariant; the 409 check is what keeps names unique |
| Server.ReceivePreservesValid | lib/server.js:120-174 | every received frame, in either phase, keeps the invariant and only grows the registry |
| Server.JoinMembersAreOthers | lib/server.js:137-145 | the `members` list sent to a joiner is exactly the membership before the join, in insertion order |
| Server.JoinRefusedCloses | lib/server.js:94-118 | a join refused with 404, 409 or 401 answers with that code and the request's id, closes the connection, and changes no chat |
| Server.StartThenJoinAdmits | lib/server.js:76-145 | a chat started with a password admits a second connection with the same password under another name, which is told the starter's name and starts relaying |
| Server.FirstMustBeStartOrJoin | lib/server.js:123-143 | a first frame that is not a start or join request is answered 400 and the connection closed, with no chat registered or changed |
| Server.FirstResponsesEchoId | lib/server.js:120-145 | every first-phase response except the 500 of a thrown error carries the request's id |
| Server.RelayPhase | lib/server.js:147-187 | relaying never changes the server's state or closes a connection; a forwarded message reaches the named member with `from` set to the sender and every other field intact |
| Kdf.NumBlocks | lib/peer.js:30 | `Math.ceil(length / 32)`: the fewest 32-byte rounds that cover `length` |
| Kdf.Hkdf | lib/peer.js:24-37 | with a 32-byte digest, hkdf returns exactly `length` bytes |
| Kdf.HkdfLoop | lib/peer.js:24-37 | the expand loop with a running `t` and growing output computes the HKDF definition |
| Kdf.BlocksLength | lib/peer.js:30-34 | with a 32-byte digest, n expand rounds produce 32·n bytes |
| Kdf.BlocksPrefix | lib/peer.js:30-34 | the output of fewer rounds is a prefix of the output of more rounds |
| Kdf.BlockPosition | lib/peer.js:30-34 | round j occupies bytes 32(j-1) to 32j of the output |
| Kdf.HkdfLayout | lib/peer.js:24-37 | every whole round that fits in `length` appears at its offset in the derived key |
| Kdf.HkdfPrefix | lib/peer.js:36 | asking for fewer bytes gives a prefix of asking for more |
| Kdf.BlockIsRfcT | lib/peer.js:31-32 | each round equals T(i) of section 2.3 of RFC 5869 while the counter fits in one octet |
| Kdf.BlocksAreRfcConcat | lib/peer.js:30-34 | the rounds concatenate to T(1) through T(n) of RFC 5869 |
| Kdf.HkdfIsRfc5869 | lib/peer.js:24-37 | for lengths up to 255·32 the source's hkdf is exactly HKDF-Extract then HKDF-Expand of RFC 5869 |
| Kdf.Less | lib/peer.js:99 | the string order used by `sort()`: no name sorts before itself, and a proper prefix sorts before the longer name |
| Kdf.LessTrichotomy | lib/peer.js:99 | the string order used by `sort()` is trichotomous: irreflexive, asymmetric and total |
| Kdf.LessTransitive | lib/peer.js:99 | the string order is transitive, so together with trichotomy a strict total order |
| Kdf.SortPair | lib/peer.js:99 | the sorted pair is a permutation of the two names, in non-decreasing order |
| Kdf.ContextSymmetric | lib/peer.js:99 | both participants build the same HKDF info string, whichever name is their own |
| Kdf.Context | lib/peer.js:99 | the info string is the smaller name, a comma, then the larger name |
| Peer.New | lib/peer.js:40-60 | a new peer has no secret, no remote description and empty queues, and holds the given name, worker and key pair |
| Peer.AddIceCandidate | lib/peer.js:78-85 | a candidate is queued while there is no remote description and applied at once otherwise; a queue that is settled stays settled |
| Peer.ApplyAll | lib/peer.js:90 | one `addIceCandidate` per queued candidate, in order |
| Peer.SetRemoteDescription | lib/peer.js:87-95 | the description is recorded, every queued candidate is applied in arrival order, and the queue is emptied |
| Peer.CandidatesAppliedInOrder | lib/peer.js:78-95 | over any sequence of candidates and descriptions, each candidate is applied exactly once and in arrival order; none waits once a description exists, and none is applied before one |
| Peer.EncryptJobs | lib/peer.js:104-113 | each queued sender gets exactly one encrypt job on the peer's worker with the secret, in order |
| Peer.ReplayTracks | lib/peer.js:115 | each buffered track event gets a decrypt job, then a stream announcement, in order |
| Peer.ComputeSecret | lib/peer.js:97-121 | the supplied salt is used if present, otherwise the new one; the secret is HKDF over the DH value with the names as info; queued senders are bound, buffered tracks replayed, both queues emptied, and nothing else changes |
| Peer.DeriveSecret | lib/peer.js:98-102 | with a 32-byte digest the secret is 32 bytes; it is HKDF over the Diffie-Hellman value with the two names, smaller first, joined by a comma, as info |
| Peer.SecretsAgree | lib/peer.js:97-102 | the responder with a new salt and the initiator with that salt sent back derive the same secret when Diffie-Hellman agrees |
| Peer.AddTrack | lib/peer.js:123-127 | the sender is remembered at the end of the queue, with no effect |
| Peer.OnTrack | lib/peer.js:139-159 | without a secret a track event is buffered; with one it is bound to a decrypt job with the current secret and the stream is announced under the peer's name |
| Peer.OnIceCandidate | lib/peer.js:131-137 | a local candidate is signalled to the peer's name; the end-of-candidates event sends nothing |
| Peer.EarlyTracksBuffered | lib/peer.js:139-143 | before the secret exists, track events are only buffered, in order, and nothing is bound |
| Peer.EarlyTracksReplayedInOrder | lib/peer.js:97-121 | no track event is lost: computing the secret binds every early event in arrival order, after the queued senders |
| Frame.Split | lib/worker.js:56-59 | the receiver's split yields a 16-byte nonce, a 16-byte tag and the rest whenever the payload has at least 32 bytes |
| Frame.SplitJoin | lib/worker.js:43-59 | splitting `nonce \|\| tag \|\| ciphertext` gives the three fields back |
| Frame.JoinSplit | lib/worker.js:56-59 | the three slices of any payload concatenate back to it |
| Frame.EncryptFrame | lib/worker.js:39-46 | the sender leaves everything but the data alone, and the data parses as the nonce, then the tag and ciphertext of sealing the plaintext |
| Frame.DecryptFrame | lib/worker.js:55-63 | the receiver fails exactly when the tag check fails, and otherwise replaces the data with the opened plaintext |
| Frame.FrameRoundTrip | lib/worker.js:34-65 | decrypting an encrypted frame with the same key restores the frame exactly |
| Frame.SelectTransform | lib/worker.js:67-70 | `'encrypt'` selects the sender transform and any other operation the receiver |
| Frame.SenderStream | lib/worker.js:34-48 | the sender stream encrypts each frame with its own nonce, in order |
| Frame.ReceiverStreamAsWritten | lib/worker.js:50-65 | as written, the receiver stream delivers the decryptions of the frames before the first one that fails, in order; it is errored exactly when it stops short, and then the frame it stopped at fails |
| Frame.AsWrittenErrorsIffSomeFails | lib/worker.js:55-63 | as written, the receive pipe errors exactly when some frame fails authentication |
| Frame.ReceiverStream | lib/worker.js:50-65 | the corrected receiver stream delivers only decryptions of frames it was given, and the decryption of every frame that opens, whatever failed before it |
| Frame.FailedFrameEnqueuesNothing | lib/worker.js:60-62 | a frame that fails authentication enqueues nothing, in either version |
| Frame.ReceiverStreamAppend | lib/worker.js:55-63 | in the corrected stream frames are independent: the output for a concatenation is the concatenation of the outputs |
| Frame.BadFrameStallsStream | lib/worker.js:55-62 | one bad frame followed by a good one: as written nothing is delivered and the stream errors; corrected, the good frame is delivered |
| Frame.StreamRoundTrip | lib/worker.js:34-65 | the receiver stream turns the sender stream's output back into the original frames, in order, in both versions and without an error |
| Frame.RunJob | lib/worker.js:67-75 | an encrypt job runs the sender stream and never errors; any other job runs the receiver stream as written, which stops and errors at the first frame that fails |
| Frame.JobsRoundTrip | lib/worker.js:67-75 | a decrypt job over an encrypt job's output, with the same secret, gives back the original frames without an error |
| Client.PoolSize | lib/client.js:15 | the worker pool has `hardwareConcurrency` workers, or 4 when that is 0 or absent |
| Client.WorkerIndex | lib/client.js:94 | a new peer's worker is always a valid index into the pool, and is the peer count while the pool is not yet full |
| Client.AddTracks | lib/client.js:29-36 | one sender per existing track, audio first, is appended to the peer, and nothing else happens |
| Client.CreatePeerConnection | lib/client.js:93-125 | a new peer replaces only the entry under `name`, on the next worker in turn, with the fresh key pair and empty queues; it holds a secret exactly when there is a bundle; without one exactly one offer goes out, with one the offer is the remote description and the answer is the last thing sent |
| Client.Initiate | lib/client.js:93-124 | without a bundle, exactly the named peer is added or replaced, on the next worker and with the tracks attached, and exactly one offer with its public key goes to that name |
| Client.RespondToOffer | lib/client.js:99-118 | with a bundle, the peer holds the secret derived from the offer's key and a new salt and has the offer as its remote description; its tracks are bound to encryption, then the answer with the salt goes out |
| Client.ResponderEncryptsItsTracks | lib/client.js:99-118 | every track the responder attached is bound to an encrypt job with the new secret before the answer, which is the last thing sent |
| Client.HandleCandidate | lib/client.js:189-198 | a candidate from a name without a peer is refused; a known sender's message without a candidate is exactly the malformed case; otherwise it reaches that peer's queue-or-apply logic and no other peer |
| Client.AcceptAnswer | lib/client.js:213-219 | the initiator derives the secret with the salt it was sent and its own key and records the answer; its effects are exactly the encrypt jobs for its queued senders, then the decrypt jobs and stream announcements for its buffered tracks, then its queued candidates, each in order |
| Client.HandleAnswer | lib/client.js:205-220 | an answer from a name without a peer is refused; a known sender's answer missing its description, public key or salt is exactly the malformed case; otherwise it is accepted with those three fields |
| Client.HandleOffer | lib/client.js:200-203 | an offer creates a responder peer under the sender's name with the derived secret and the offer applied, and ends with the answer to that sender |
| Client.HandleMessage | lib/client.js:164-187 | an unparsable frame and any type other than candidate/offer/answer are errors; the three types go to their handlers |
| Client.UnknownSenderRefused | lib/client.js:189-211 | a candidate or answer from an unknown name is refused |
| Client.HandleMessageKeepsKeyed | lib/client.js:93-97 | handling any message keeps every peer stored under the name of the participant it talks to, the name its key derivation uses |
| Client.FirstAnswer | lib/client.js:135-146 | the listener settles on the first parsable message carrying the request's id; no earlier message carries it |
| Client.AwaitResponse | lib/client.js:135-146 | the listener as a loop finds the same message, which carries the request's id |
| Client.Request | lib/client.js:131-162 | the request is sent with its id; success means the first message with that id is a 200 response; timeout exactly when none arrives; failure exactly when the first one is not a 200 response |
| Client.RequestIgnoresOthers | lib/client.js:138-145 | messages without the request's id, however many arrive first, do not change its outcome |
| Client.StartChat | lib/client.js:38-63 | a failed request fails startChat; it succeeds exactly when the response is a 200 carrying a chat id, and success records the chat id the relay returned and the own name, and changes nothing else |
| Client.ConnectAll | lib/client.js:88-90 | joining gives every listed member a peer, and the peers of unlisted names stay; nothing else about the client changes; it sends one offer per member, addressed to it, in list order |
| Client.ConnectAllFreshPeers | lib/client.js:88-97 | a listed member's old peer is replaced by a fresh initiator with the key pair drawn for the member's last listing, the client's tracks as senders, no secret, no remote description and nothing queued |
| Client.ConnectAllKeeps | lib/client.js:88-90 | a peer whose name is not listed is left as it was |
| Client.InitiateAdvancesWorker | lib/client.js:94-97 | each new peer takes the current worker, and the next peer gets the next worker, wrapping after the last |
| Client.ConnectAllKeepsKeyed | lib/client.js:88-97 | connecting to the members keeps every peer under its own name |
| Client.JoinMembers | lib/client.js:83-90 | after admission: the chat id and own name are recorded and nothing else but the peers changes; every listed member gets a fresh initiator peer holding its fresh key pair and the client's tracks, replacing any older one; one offer goes to each member, in list order, carrying that key pair |
| Client.JoinChat | lib/client.js:65-91 | a failed request fails joinChat; it succeeds exactly when the response is a 200 carrying a member list, and success records the requested chat id and own name and changes nothing else but the peers, which become the old ones plus every member the relay listed, each listed member's peer a fresh initiator with its fresh key pair and the client's tracks; exactly one offer goes to each listed member, in list order, the k-th with the k-th fresh key pair |
| Client.RelayDeliversSignal | lib/server.js:176-187 | a signal sent on an admitted connection reaches the member it names, unchanged apart from the `from` stamp the client reads back, and the relay's state does not change |
| Client.OfferReachesResponder | lib/client.js:171-203 | an offer relayed from A makes B the responder to A, with A's description and public key |
| Client.AnswerReachesInitiator | lib/client.js:180-220 | an answer relayed from B to an A that knows B is accepted with B's description, public key and salt |
| Client.AnswerStartsEncryption | lib/client.js:93-124 | when an initiator accepts the answer, its only effects are the encrypt jobs for the tracks it attached when it offered, on its worker and with the new secret |
| Client.HandshakeAgrees | lib/client.js:93-220 | A offers, B answers through the relay, and A and B end with the same secret; A then binds its tracks to encryption with it |

## Left out

- Sockets, HTTPS, the WebSocket server's lifecycle (`start`, `stop`),
  connection and request timeouts, and `console.log`. A request that never
  sees its answer is `Timeout`; the 10-second clock is not modelled.
- `emit('error', …)` on the server and client is not modelled. Where a
  listener throws, the model returns an error value or sends nothing.
- Cryptographic primitives are uninterpreted: scrypt, bs58, HMAC-SHA256,
  modp14 Diffie-Hellman, AES-256-GCM, base64 and UTF-8. Their security is
  out of scope; the lemmas state which facts about them they assume.
- `startStream`/`getUserMedia`: the client's audio and video tracks are
  given as optional fields of the client.
- The browser's `createOffer`/`createAnswer` and the RTCPeerConnection
  itself: the local description is an input, and ICE and SDP contents are
  opaque strings.
- Concurrency. Each server frame and each client message is handled
  atomically, except for the one interleaving in Findings. The
  responder's `Promise.all` (lib/client.js:102-106) is modelled in one
  chosen interleaving: tracks are attached first, then the secret is
  derived, then the remote description is applied. In the source
  `randBytes` (lib/peer.js:100) and `conn.setRemoteDescription`
  (lib/peer.js:88) may complete in either order. joinChat's offers are
  modelled as going out in member order; in the source each offer is sent
  when its `createOffer` resolves inside `Promise.all`
  (lib/client.js:88-90), in whatever order those complete. Two concurrent `start`s that draw colliding id prefixes are not
  modelled.
- Server: a start or join without a `name` field registers the key
  `undefined` in the source. The model treats it as the thrown-error
  (500) path.
- Server: other top-level JSON fields of a relayed message, JSON `null`
  bodies, and non-string field values are not modelled.
- Kdf.Less: strings are compared character by character, with characters
  taken as code points. JavaScript's `sort()` compares UTF-16 code units,
  so a name with a character above U+FFFF sorts before one with a
  character in U+E000–U+FFFF at the same place; the model orders them the
  other way. Names within the Basic Multilingual Plane are ordered as in
  the source.
- Server: closed connections are never removed from a chat, and chats are
  never removed, as in the source; nothing models socket close events.
- Client.HandleCandidate: a candidate message without a `candidate` field
  gives `Malformed` and changes nothing. The source passes `undefined` on
  to `addIceCandidate`.
- Client.HandleAnswer: an answer without `answer`, `pubKey` or `salt`
  gives `Malformed` and changes nothing. The source either throws in
  `Buffer.from` or sets an undefined description.
- Client.HandleOffer: an offer without `from`, `offer` or `pubKey` gives
  `Malformed` and changes nothing. The source would create a peer named
  `undefined`. When `Buffer.from` throws on the public key
  (lib/client.js:100), the source has already stored a new peer under
  `from` (lib/client.js:97). Base64 decoding is total in the model, so
  that throw and the peer it leaves behind are not modelled.
- Client.StartChat: a 200 response without a `chatId` payload gives
  `Malformed`, where the source stores `undefined`.
- Client.JoinChat: it does not state which worker each member's peer
  gets. The round-robin step is stated once per peer by
  Client.InitiateAdvancesWorker and Client.CreatePeerConnection.
- A track added to a peer after its secret exists is remembered but never
  bound to a worker, as in the source.
- Kdf.HkdfIsRfc5869: agreement with RFC 5869 is stated only for lengths
  up to 255·32 bytes. Beyond that the source's counter octet wraps, and
  RFC 5869 forbids such lengths. The key length used is 32.
- The client constructor's other fields, the creation of the `Worker`
  objects, and `send` as a socket write are not modelled. Outgoing
  signals are effects.

## Findings

| source | as written | input that shows it | evidently intended | confidence | as-written member | corrected member |
|---|---|---|---|---|---|---|
| lib/worker.js:55-63 | `decrypt` throws out of `transform` when a frame's tag does not verify, which errors the TransformStream and stops the whole receive pipe | a frame with a corrupted tag, followed by a valid frame: the valid frame is never delivered | drop the frame that fails and keep decrypting later frames | medium, not executed | Frame.ReceiverStreamAsWritten (shown by Frame.BadFrameStallsStream; Frame.RunJob runs it) | Frame.ReceiverStream |
| lib/server.js:103-115 | the 409 name check runs before `await slowHash(...)` and `conns.set(name, conn)` after it, so two joins under the same name that overlap both pass the check | two `join` requests for one chat with the same free name and the right password, the second arriving while the first one's scrypt runs: both get 200, and the second connection replaces the first in `conns` | the second join is refused with 409, so member names stay unique | medium, not executed | Server.JoinCommitAsWritten (shown by Server.SameNameJoinsRace) | Server.JoinCommit (shown by Server.SameNameJoinRefused; Server.JoinChat equals it by Server.JoinChatSplits) |

=== FILE: client.dfy ===
/** The client side of lib/client.js: one participant's set of peer
    sessions keyed by remote name, dispatch of relayed signaling messages
    to them, the worker each new peer is given, and request/response
    correlation with the relay. */
module Client {
  import opened Common
  import opened Wire
  import opened Kdf
  import P = Peer
  import S = Server

  /** The primitives the client calls: the peer's cryptography and the
      base64 codecs of `Buffer`. */
  datatype Env = Env(crypto: P.Crypto, b64decode: string -> Bytes, b64encode: Bytes -> string)

  /** A positive number of workers. */
  type Count = n: nat | 0 < n witness 1

  datatype Client = Client(
    name: string,
    chatId: string,
    workerCount: Count,
    peers: map<string, P.Peer>,
    audio: Option<P.TrackId>,
    video: Option<P.TrackId>,
    stream: P.StreamId)

  const DefaultWorkers: Count := 4

  /** `navigator.hardwareConcurrency || 4`: a value of 0 (or none) means 4. */
  function PoolSize(hardwareConcurrency: nat): (n: Count)
    ensures hardwareConcurrency > 0 ==> n == hardwareConcurrency
    ensures hardwareConcurrency == 0 ==> n == DefaultWorkers
  {
    if hardwareConcurrency == 0 then DefaultWorkers else hardwareConcurrency
  }

  /** What one new peer connection draws from outside: a Diffie-Hellman
      key pair, 32 random bytes in case it must make the salt, and the
      local description `createOffer`/`createAnswer` produces. */
  datatype PeerEntropy = PeerEntropy(keys: P.KeyPair, salt: Bytes, localDesc: P.Description)

  /** The offer relayed to a responder. */
  datatype Bundle = Bundle(offer: P.Description, pubKey: string)

  datatype Handled = Handled(client: Client, effects: seq<P.Effect>)

  /** `peers.size % workers.length`: the worker a new peer is given, always
      a valid index into the pool. */
  function WorkerIndex(c: Client): (i: nat)
    ensures i < c.workerCount
    ensures |c.peers| < c.workerCount ==> i == |c.peers|
  {
    |c.peers| % c.workerCount
  }

  /** The senders addTracks attaches: the audio track's, then the video
      track's, each when the track exists. */
  function TrackSenders(c: Client): seq<P.Sender>
  {
    (if c.audio.Some? then [P.Sender(c.audio.value, c.stream)] else [])
    + (if c.video.Some? then [P.Sender(c.video.value, c.stream)] else [])
  }

  /** addTracks: one `addTrack` per existing track, audio first; together
      they append the client's senders and do nothing else. */
  function AddTracks(c: Client, p: P.Peer): (r: P.Step)
    ensures r == P.Step(p.(senders := p.senders + TrackSenders(c)), [])
  {
    var withAudio := if c.audio.Some? then P.AddTrack(p, c.audio.value, c.stream).peer else p;
    var withVideo := if c.video.Some? then P.AddTrack(withAudio, c.video.value, c.stream).peer else withAudio;
    P.Step(withVideo, [])
  }

  /** The signal an initiator sends. */
  function OfferSignal(name: string, ent: PeerEntropy): P.Effect
  {
    P.SendSignal(OfferKind, map["offer" := ent.localDesc, "pubKey" := ent.keys.pub, "to" := name])
  }

  /** The signal a responder sends, with the salt it made in base64. */
  function AnswerSignal(env: Env, name: string, ent: PeerEntropy): P.Effect
  {
    P.SendSignal(AnswerKind,
      map["answer" := ent.localDesc, "pubKey" := ent.keys.pub, "salt" := env.b64encode(ent.salt), "to" := name])
  }

  /** The secret a responder derives from the offer's public key. */
  function ResponderSecret(c: Client, env: Env, name: string, b: Bundle, ent: PeerEntropy): Bytes
  {
    P.DeriveSecret(env.crypto, env.crypto.dh(ent.keys.priv, env.b64decode(b.pubKey)), c.name, name, ent.salt)
  }

  /** createPeerConnection without a bundle: this side is the initiator.
      The new peer, on the next worker in turn, gets the client's tracks
      and an offer with its public key goes out. */
  function Initiate(c: Client, name: string, ent: PeerEntropy): (r: Handled)
    ensures name in r.client.peers
    ensures r.client == c.(peers := c.peers[name := r.client.peers[name]])
    ensures r.client.peers[name] == P.New(name, WorkerIndex(c), ent.keys).(senders := TrackSenders(c))
    ensures r.effects == [OfferSignal(name, ent)]
  {
    var p := AddTracks(c, P.New(name, WorkerIndex(c), ent.keys)).peer;
    Handled(c.(peers := c.peers[name := p]), [OfferSignal(name, ent)])
  }

  /** createPeerConnection with a bundle: this side is the responder. It
      attaches its tracks (the synchronous part of the source's
      `Promise.all`, which runs before the secret is derived), derives the
      secret with a new salt, which binds those tracks to the encrypt
      path, applies the offer, and answers with its public key and the
      salt. */
  function RespondToOffer(c: Client, env: Env, name: string, b: Bundle, ent: PeerEntropy): (r: Handled)
    ensures name in r.client.peers
    ensures r.client == c.(peers := c.peers[name := r.client.peers[name]])
    ensures var secret := ResponderSecret(c, env, name, b, ent);
      && r.client.peers[name] == P.New(name, WorkerIndex(c), ent.keys).(secret := Some(secret), remoteDescription := Some(b.offer))
      && r.effects == P.EncryptJobs(WorkerIndex(c), secret, TrackSenders(c)) + [AnswerSignal(env, name, ent)]
  {
    var p0 := P.New(name, WorkerIndex(c), ent.keys);
    var p := AddTracks(c, p0).peer;
    assert p == p0.(senders := TrackSenders(c));
    var secret := ResponderSecret(c, env, name, b, ent);
    var d := P.ComputeSecret(env.crypto, p, env.b64decode(b.pubKey), c.name, None, ent.salt);
    assert d.peer == p0.(secret := Some(secret));
    assert d.effects == P.EncryptJobs(p0.worker, secret, TrackSenders(c));
    var s := P.SetRemoteDescription(d.peer, b.offer);
    assert s.peer == p0.(secret := Some(secret), remoteDescription := Some(b.offer)) && s.effects == [];
    Handled(c.(peers := c.peers[name := s.peer]), d.effects + s.effects + [AnswerSignal(env, name, ent)])
  }

  /** createPeerConnection: a new peer under `name`, replacing any peer
      already there and touching no other, on the next worker in turn,
      with the fresh key pair. Without a bundle this side is the initiator:
      no secret yet, and it sends an offer. With one it is the responder:
      it holds the secret and the offer, and its last act is the answer. */
  function CreatePeerConnection(c: Client, env: Env, name: string, bundle: Option<Bundle>, ent: PeerEntropy): (r: Handled)
    ensures name in r.client.peers
    ensures r.client == c.(peers := c.peers[name := r.client.peers[name]])
    ensures var p := r.client.peers[name];
      && p.name == name && p.worker == WorkerIndex(c)
      && p.privKey == ent.keys.priv && p.pubKey == ent.keys.pub
      && p.candidates == [] && p.trackEvents == []
    ensures bundle.Some? <==> r.client.peers[name].secret.Some?
    ensures bundle.None? ==> r.effects == [OfferSignal(name, ent)] && r.client.peers[name].senders == TrackSenders(c)
    ensures bundle.Some? ==>
      && r.client.peers[name].remoteDescription == Some(bundle.value.offer)
      && |r.effects| > 0 && r.effects[|r.effects| - 1] == AnswerSignal(env, name, ent)
  {
    match bundle
    case None => Initiate(c, name, ent)
    case Some(b) =>
      ResponderEncryptsItsTracks(c, env, name, b, ent);
      RespondToOffer(c, env, name, b, ent)
  }

  /** A responder binds every track it attached to the encrypt path, on
      its peer's worker and with the new secret, before it answers. */
  lemma {:induction false} ResponderEncryptsItsTracks(c: Client, env: Env, name: string, b: Bundle, ent: PeerEntropy)
    ensures var r := RespondToOffer(c, env, name, b, ent);
      var secret := ResponderSecret(c, env, name, b, ent);
      && (c.audio.Some? ==> P.PostJob(WorkerIndex(c), P.Job(P.EncryptOp, secret, P.SenderPipe(P.Sender(c.audio.value, c.stream)))) in r.effects)
      && (c.video.Some? ==> P.PostJob(WorkerIndex(c), P.Job(P.EncryptOp, secret, P.SenderPipe(P.Sender(c.video.value, c.stream)))) in r.effects)
      && r.effects[|r.effects| - 1] == AnswerSignal(env, name, ent)
  {
    var r := RespondToOffer(c, env, name, b, ent);
    var secret := ResponderSecret(c, env, name, b, ent);
    var jobs := P.EncryptJobs(WorkerIndex(c), secret, TrackSenders(c));
    if c.audio.Some? {
      assert r.effects[0] == jobs[0];
    }
    if c.video.Some? {
      assert r.effects[|jobs| - 1] == jobs[|jobs| - 1];
    }
  }

  // ---------------------------------------------------------------------
  // Dispatch of relayed messages

  datatype ClientError =
    | InvalidMessage          // JSON.parse failed
    | UnrecognizedType        // neither candidate, offer nor answer
    | UnknownPeer             // candidate or answer from a name not in `peers`
    | Malformed               // a field the handler reads is missing
    | Timeout                 // no response with the request's id
    | RequestFailed           // the response's code is not 200

  /** handleCandidate: the candidate goes to the peer named `from`. */
  function HandleCandidate(c: Client, f: Fields): (r: Result<Handled, ClientError>)
    ensures ("from" !in f || f["from"] !in c.peers) <==> r == Err(UnknownPeer)
    ensures r == Err(Malformed) <==> "from" in f && f["from"] in c.peers && "candidate" !in f
    ensures r.Ok? ==>
      && "candidate" in f
      && var step := P.AddIceCandidate(c.peers[f["from"]], f["candidate"]);
         r.value == Handled(c.(peers := c.peers[f["from"] := step.peer]), step.effects)
  {
    if "from" !in f || f["from"] !in c.peers then Err(UnknownPeer)
    else if "candidate" !in f then Err(Malformed)
    else
      var step := P.AddIceCandidate(c.peers[f["from"]], f["candidate"]);
      Ok(Handled(c.(peers := c.peers[f["from"] := step.peer]), step.effects))
  }

  /** The body of handleAnswer once its fields are read: the initiator
      derives the secret with the salt it was sent (which completes
      without waiting), then applies the answer, which releases the
      queued candidates in order. */
  function AcceptAnswer(c: Client, env: Env, from: string, answer: P.Description, pubKey: string, salt: string): (r: Handled)
    requires from in c.peers
    ensures var before := c.peers[from];
      var secret := P.DeriveSecret(env.crypto, env.crypto.dh(before.privKey, env.b64decode(pubKey)),
                                    c.name, before.name, env.b64decode(salt));
      && r.client == c.(peers := c.peers[from := before.(secret := Some(secret), remoteDescription := Some(answer),
                                                         candidates := [], senders := [], trackEvents := [])])
      && r.effects == P.EncryptJobs(before.worker, secret, before.senders)
                      + P.ReplayTracks(before.worker, before.name, secret, before.trackEvents)
                      + P.ApplyAll(before.candidates)
  {
    var peer := c.peers[from];
    var d := P.ComputeSecret(env.crypto, peer, env.b64decode(pubKey), c.name, Some(env.b64decode(salt)), []);
    var s := P.SetRemoteDescription(d.peer, answer);
    Handled(c.(peers := c.peers[from := s.peer]), d.effects + s.effects)
  }

  /** handleAnswer: an answer from a peer the client knows. */
  function HandleAnswer(c: Client, env: Env, f: Fields): (r: Result<Handled, ClientError>)
    ensures ("from" !in f || f["from"] !in c.peers) <==> r == Err(UnknownPeer)
    ensures r == Err(Malformed) <==>
      "from" in f && f["from"] in c.peers && ("answer" !in f || "pubKey" !in f || "salt" !in f)
    ensures r.Ok? ==>
      && "from" in f && f["from"] in c.peers && "answer" in f && "pubKey" in f && "salt" in f
      && r.value == AcceptAnswer(c, env, f["from"], f["answer"], f["pubKey"], f["salt"])
  {
    if "from" !in f || f["from"] !in c.peers then Err(UnknownPeer)
    else if "answer" !in f || "pubKey" !in f || "salt" !in f then Err(Malformed)
    else Ok(AcceptAnswer(c, env, f["from"], f["answer"], f["pubKey"], f["salt"]))
  }

  /** handleOffer: a responder connection for the peer named `from`. */
  function HandleOffer(c: Client, env: Env, f: Fields, ent: PeerEntropy): (r: Result<Handled, ClientError>)
    ensures r.Err? <==> "from" !in f || "offer" !in f || "pubKey" !in f
    ensures r.Err? ==> r.error == Malformed
    ensures r.Ok? ==>
      && f["from"] in r.value.client.peers
      && r.value.client.peers[f["from"]].remoteDescription == Some(f["offer"])
      && r.value.client.peers[f["from"]].secret == Some(ResponderSecret(c, env, f["from"], Bundle(f["offer"], f["pubKey"]), ent))
      && |r.value.effects| > 0
      && r.value.effects[|r.value.effects| - 1] == AnswerSignal(env, f["from"], ent)
  {
    if "from" !in f || "offer" !in f || "pubKey" !in f then Err(Malformed)
    else
      var h := RespondToOffer(c, env, f["from"], Bundle(f["offer"], f["pubKey"]), ent);
      ResponderEncryptsItsTracks(c, env, f["from"], Bundle(f["offer"], f["pubKey"]), ent);
      Ok(h)
  }

  /** handleMessage: route candidate, offer and answer; anything else is
      an error. */
  function HandleMessage(c: Client, env: Env, ent: PeerEntropy, raw: Raw): (r: Result<Handled, ClientError>)
    ensures raw.Unparsable? ==> r == Err(InvalidMessage)
    ensures raw.Parsed? && !(raw.msg.Req? && IsRelayKind(raw.msg.kind)) ==> r == Err(UnrecognizedType)
    ensures raw.Parsed? && raw.msg.Req? && raw.msg.data.Some? ==>
      var f := raw.msg.data.value;
      && (raw.msg.kind == CandidateKind ==> r == HandleCandidate(c, f))
      && (raw.msg.kind == OfferKind ==> r == HandleOffer(c, env, f, ent))
      && (raw.msg.kind == AnswerKind ==> r == HandleAnswer(c, env, f))
  {
    match raw
    case Unparsable => Err(InvalidMessage)
    case Parsed(msg) =>
      if !msg.Req? || !IsRelayKind(msg.kind) then Err(UnrecognizedType)
      else if msg.data.None? then Err(Malformed)
      else if msg.kind == CandidateKind then HandleCandidate(c, msg.data.value)
      else if msg.kind == OfferKind then HandleOffer(c, env, msg.data.value, ent)
      else HandleAnswer(c, env, msg.data.value)
  }

  /** A candidate or answer from a name the client has no peer for is
      refused, and no peer's state is touched. */
  lemma {:induction false} UnknownSenderRefused(c: Client, env: Env, ent: PeerEntropy, kind: string, f: Fields, id: Option<string>)
    requires kind == CandidateKind || kind == AnswerKind
    requires "from" !in f || f["from"] !in c.peers
    ensures HandleMessage(c, env, ent, Parsed(Req(kind, Some(f), id))) == Err(UnknownPeer)
  {
  }

  /** Every peer is stored under the name of the participant it connects
      to, which is the name its key derivation uses. */
  ghost predicate Keyed(c: Client)
  {
    forall n :: n in c.peers ==> c.peers[n].name == n
  }

  /** Handling any relayed message keeps every peer under its own name. */
  lemma {:induction false} HandleMessageKeepsKeyed(c: Client, env: Env, ent: PeerEntropy, raw: Raw)
    requires Keyed(c)
    ensures var r := HandleMessage(c, env, ent, raw);
      r.Ok? ==> Keyed(r.value.client)
  {
    if raw.Parsed? && raw.msg.Req? && IsRelayKind(raw.msg.kind) && raw.msg.data.Some? {
      var f := raw.msg.data.value;
      if raw.msg.kind == CandidateKind {
        CandidateKeepsKeyed(c, f);
      } else if raw.msg.kind == OfferKind {
        if "from" in f && "offer" in f && "pubKey" in f {
          RespondKeepsKeyed(c, env, f["from"], Bundle(f["offer"], f["pubKey"]), ent);
        }
      } else {
        AnswerKeepsKeyed(c, env, f);
      }
    }
  }

  lemma {:induction false} CandidateKeepsKeyed(c: Client, f: Fields)
    requires Keyed(c)
    ensures var r := HandleCandidate(c, f);
      r.Ok? ==> Keyed(r.value.client)
  {
  }

  lemma {:induction false} RespondKeepsKeyed(c: Client, env: Env, name: string, b: Bundle, ent: PeerEntropy)
    requires Keyed(c)
    ensures Keyed(RespondToOffer(c, env, name, b, ent).client)
  {
  }

  lemma {:induction false} AnswerKeepsKeyed(c: Client, env: Env, f: Fields)
    requires Keyed(c)
    ensures var r := HandleAnswer(c, env, f);
      r.Ok? ==> Keyed(r.value.client)
  {
  }

  // ---------------------------------------------------------------------
  // Requests to the relay

  /** The only code `request` accepts. */
  const Success := 200

  predicate Answers(raw: Raw, id: string)
  {
    raw.Parsed? && raw.msg.id == Some(id)
  }

  /** The listener of `request`: the first parsable message whose id is
      the request's id, skipping everything else. */
  function FirstAnswer(id: string, incoming: seq<Raw>): (r: Option<nat>)
    ensures r.Some? ==> r.value < |incoming| && Answers(incoming[r.value], id)
    ensures forall i :: 0 <= i < |incoming| && (r.None? || i < r.value) ==> !Answers(incoming[i], id)
  {
    if incoming == [] then None
    else if Answers(incoming[0], id) then Some(0)
    else match FirstAnswer(id, incoming[1..])
      case None => None
      case Some(i) => Some(i + 1)
  }

  /** The same scan, as a loop over the incoming messages. */
  method AwaitResponse(id: string, incoming: seq<Raw>) returns (r: Option<Msg>)
    ensures r == (match FirstAnswer(id, incoming) case None => None case Some(i) => Some(incoming[i].msg))
    ensures r.Some? ==> r.value.id == Some(id)
  {
    var i := 0;
    while i < |incoming|
      invariant 0 <= i <= |incoming|
      invariant forall j :: 0 <= j < i ==> !Answers(incoming[j], id)
    {
      if Answers(incoming[i], id) {
        FirstAnswerIsFirst(id, incoming, i);
        return Some(incoming[i].msg);
      }
      i := i + 1;
    }
    FirstAnswerNone(id, incoming);
    return None;
  }

  /** The first answer is the answering message with no answer before it. */
  lemma {:induction false} FirstAnswerIsFirst(id: string, incoming: seq<Raw>, i: nat)
    requires i < |incoming| && Answers(incoming[i], id)
    requires forall j :: 0 <= j < i ==> !Answers(incoming[j], id)
    ensures FirstAnswer(id, incoming) == Some(i)
    decreases i
  {
    if i > 0 {
      FirstAnswerIsFirst(id, incoming[1..], i - 1);
    }
  }

  /** No answering message means no answer. */
  lemma {:induction false} FirstAnswerNone(id: string, incoming: seq<Raw>)
    requires forall j :: 0 <= j < |incoming| ==> !Answers(incoming[j], id)
    ensures FirstAnswer(id, incoming) == None
    decreases |incoming|
  {
    if incoming != [] {
      FirstAnswerNone(id, incoming[1..]);
    }
  }

  /** request(type, data): send `{type, data, id}`, wait for the message
      with that id, and fail unless its code is 200. No answer within the
      timeout is `Timeout`. */
  function Request(kind: string, data: Fields, id: string, incoming: seq<Raw>): (r: (Msg, Result<Msg, ClientError>))
    ensures r.0 == Req(kind, Some(data), Some(id))
    ensures r.1.Ok? ==>
      && r.1.value.Resp? && r.1.value.code == Success && r.1.value.id == Some(id)
      && exists i :: 0 <= i < |incoming| && incoming[i] == Parsed(r.1.value)
                     && (forall j :: 0 <= j < i ==> !Answers(incoming[j], id))
    ensures r.1 == Err(Timeout) <==> forall i :: 0 <= i < |incoming| ==> !Answers(incoming[i], id)
    ensures r.1 == Err(RequestFailed) <==>
      exists i :: 0 <= i < |incoming| && Answers(incoming[i], id)
                  && (forall j :: 0 <= j < i ==> !Answers(incoming[j], id))
                  && !(incoming[i].msg.Resp? && incoming[i].msg.code == Success)
    ensures r.1.Ok? || r.1 == Err(Timeout) || r.1 == Err(RequestFailed)
  {
    var sent := Req(kind, Some(data), Some(id));
    match FirstAnswer(id, incoming)
    case None => (sent, Err(Timeout))
    case Some(i) =>
      var m := incoming[i].msg;
      if m.Resp? && m.code == Success then (sent, Ok(m)) else (sent, Err(RequestFailed))
  }

  /** Messages that do not carry the request's id, wherever they arrive,
      do not change its outcome. */
  lemma {:induction false} RequestIgnoresOthers(kind: string, data: Fields, id: string, before: seq<Raw>, incoming: seq<Raw>)
    requires forall j :: 0 <= j < |before| ==> !Answers(before[j], id)
    ensures Request(kind, data, id, before + incoming) == Request(kind, data, id, incoming)
  {
    FirstAnswerShift(id, before, incoming);
  }

  /** The scan over `before + incoming` finds the same message as the scan
      over `incoming`, |before| places later. */
  lemma {:induction false} FirstAnswerShift(id: string, before: seq<Raw>, incoming: seq<Raw>)
    requires forall j :: 0 <= j < |before| ==> !Answers(before[j], id)
    ensures FirstAnswer(id, before + incoming)
         == (match FirstAnswer(id, incoming) case None => None case Some(i) => Some(i + |before|))
    decreases |before|
  {
    if before != [] {
      var all := before + incoming;
      assert all[0] == before[0] && all[1..] == before[1..] + incoming;
      FirstAnswerShift(id, before[1..], incoming);
      match FirstAnswer(id, incoming)
      case None =>
      case Some(i) =>
        assert FirstAnswer(id, all[1..]) == Some(i + |before| - 1);
    } else {
      assert before + incoming == incoming;
    }
  }

  // ---------------------------------------------------------------------
  // Starting and joining a chat

  /** startChat: request `start` and remember the chat id and own name. */
  function StartChat(c: Client, name: string, password: string, id: string, incoming: seq<Raw>): (r: Result<Client, ClientError>)
    ensures var resp := Request(StartKind, map["name" := name, "password" := password], id, incoming).1;
      && (resp.Err? ==> r == Err(resp.error))
      && (r.Ok? <==> resp.Ok? && resp.value.payload.ChatIdPayload?)
      && (r.Ok? ==> resp.Ok? && resp.value.payload == ChatIdPayload(r.value.chatId)
                    && r.value == c.(chatId := r.value.chatId, name := name))
  {
    match Request(StartKind, map["name" := name, "password" := password], id, incoming).1
    case Err(e) => Err(e)
    case Ok(m) =>
      if m.payload.ChatIdPayload? then Ok(c.(chatId := m.payload.chatId, name := name)) else Err(Malformed)
  }

  /** One initiator connection per name, in order, the k-th drawing
      `ents[k]`: every name gets a peer, nothing else about the client
      changes, and each name is sent an offer addressed to it, in the
      order the names are listed. ConnectAllKeeps and ConnectAllFreshPeers
      say what each peer is. */
  function ConnectAll(c: Client, names: seq<string>, ents: seq<PeerEntropy>): (r: Handled)
    requires |ents| == |names|
    ensures forall n :: n in r.client.peers <==> n in c.peers || n in names
    ensures r.client == c.(peers := r.client.peers)
    ensures |r.effects| == |names|
    ensures forall k :: 0 <= k < |names| ==> r.effects[k] == OfferSignal(names[k], ents[k])
    decreases |names|
  {
    if names == [] then Handled(c, [])
    else
      var first := Initiate(c, names[0], ents[0]);
      var rest := ConnectAll(first.client, names[1..], ents[1..]);
      assert forall n :: n in names <==> n == names[0] || n in names[1..];
      assert rest.client == c.(peers := rest.client.peers);
      var effects := first.effects + rest.effects;
      assert forall k :: 1 <= k < |names| ==> effects[k] == rest.effects[k - 1] && names[1..][k - 1] == names[k];
      Handled(rest.client, effects)
  }

  /** Connecting to other names leaves an existing peer as it was. */
  lemma {:induction false} ConnectAllKeeps(c: Client, names: seq<string>, ents: seq<PeerEntropy>, n: string)
    requires |ents| == |names|
    requires n in c.peers && n !in names
    ensures ConnectAll(c, names, ents).client.peers[n] == c.peers[n]
    decreases |names|
  {
    if names != [] {
      var first := Initiate(c, names[0], ents[0]);
      ConnectAllKeeps(first.client, names[1..], ents[1..], n);
    }
  }

  /** Every listed name's old peer is replaced by a fresh initiator: it
      holds the key pair drawn for the name's last listing and the
      client's tracks as senders, with no secret, no remote description
      and nothing queued. */
  lemma {:induction false} ConnectAllFreshPeers(c: Client, names: seq<string>, ents: seq<PeerEntropy>, k: nat)
    requires |ents| == |names| && k < |names| && names[k] !in names[k + 1..]
    ensures var peers := ConnectAll(c, names, ents).client.peers;
      && names[k] in peers
      && peers[names[k]] == P.New(names[k], peers[names[k]].worker, ents[k].keys).(senders := TrackSenders(c))
    decreases |names|
  {
    var first := Initiate(c, names[0], ents[0]);
    assert TrackSenders(first.client) == TrackSenders(c);
    if k == 0 {
      ConnectAllKeeps(first.client, names[1..], ents[1..], names[0]);
    } else {
      assert names[1..][k - 1] == names[k] && names[1..][k..] == names[k + 1..] && ents[1..][k - 1] == ents[k];
      ConnectAllFreshPeers(first.client, names[1..], ents[1..], k - 1);
    }
  }

  /** Workers are handed out round robin: initiating to a new name adds
      exactly one peer, so the next peer goes to the next worker,
      wrapping after the last. */
  lemma {:induction false} InitiateAdvancesWorker(c: Client, name: string, ent: PeerEntropy)
    requires name !in c.peers
    ensures var next := Initiate(c, name, ent).client;
      && |next.peers| == |c.peers| + 1
      && next.peers[name].worker == WorkerIndex(c)
      && WorkerIndex(next) == (WorkerIndex(c) + 1) % c.workerCount
  {
    var next := Initiate(c, name, ent).client;
    assert next.peers.Keys == c.peers.Keys + {name};
    ModNext(|c.peers|, c.workerCount);
  }

  /** `(n + 1) % m` is the successor of `n % m`, wrapping to 0. */
  lemma {:induction false} ModNext(n: nat, m: nat)
    requires m > 0
    ensures (n + 1) % m == (n % m + 1) % m
    ensures (n + 1) % m == if n % m + 1 == m then 0 else n % m + 1
  {
    var q, r := n / m, n % m;
    assert n == q * m + r;
    if r + 1 == m {
      MulDiff(q + 1, 1, m);
      ModUnique(n + 1, m, q + 1, 0);
      ModUnique(r + 1, m, 1, 0);
    } else {
      ModUnique(n + 1, m, q, r + 1);
      ModUnique(r + 1, m, 0, r + 1);
    }
  }

  /** Euclidean division is unique. */
  lemma {:induction false} ModUnique(x: int, m: int, q: int, r: int)
    requires m > 0 && 0 <= r < m && x == q * m + r
    ensures x % m == r
  {
    var q', r' := x / m, x % m;
    assert x == q' * m + r';
    if q > q' {
      MulAtLeast(q - q', m);
      MulDiff(q, q', m);
    } else if q < q' {
      MulAtLeast(q' - q, m);
      MulDiff(q', q, m);
    }
  }

  lemma {:induction false} MulDiff(a: int, b: int, m: int)
    ensures (a - b) * m == a * m - b * m
  {
  }

  lemma {:induction false} MulAtLeast(a: int, m: int)
    requires a >= 1 && m > 0
    ensures a * m >= m
    decreases a
  {
    if a > 1 {
      MulAtLeast(a - 1, m);
      MulDiff(a, 1, m);
    }
  }

  /** Connecting to a list of members keeps every peer under its own
      name. */
  lemma {:induction false} ConnectAllKeepsKeyed(c: Client, names: seq<string>, ents: seq<PeerEntropy>)
    requires |ents| == |names| && Keyed(c)
    ensures Keyed(ConnectAll(c, names, ents).client)
    decreases |names|
  {
    if names != [] {
      var first := Initiate(c, names[0], ents[0]);
      assert Keyed(first.client);
      ConnectAllKeepsKeyed(first.client, names[1..], ents[1..]);
    }
  }

  /** joinChat after the relay admitted it: record the chat id and own
      name, then open an initiator connection to every listed member, the
      k-th drawing `entropy(k)`. */
  function JoinMembers(c: Client, chatId: string, name: string, members: seq<string>, entropy: nat -> PeerEntropy): (r: Handled)
    ensures r.client == c.(chatId := chatId, name := name, peers := r.client.peers)
    ensures forall n :: n in r.client.peers <==> n in c.peers || n in members
    ensures |r.effects| == |members|
    ensures forall k :: 0 <= k < |members| ==> r.effects[k] == OfferSignal(members[k], entropy(k))
    ensures forall k :: 0 <= k < |members| && members[k] !in members[k + 1..] ==>
      var p := r.client.peers[members[k]];
      p == P.New(members[k], p.worker, entropy(k).keys).(senders := TrackSenders(c))
  {
    var ents := seq(|members|, k requires 0 <= k => entropy(k));
    var joined := c.(chatId := chatId, name := name);
    var r := ConnectAll(joined, members, ents);
    assert forall k :: 0 <= k < |members| && members[k] !in members[k + 1..] ==>
      var p := r.client.peers[members[k]];
      p == P.New(members[k], p.worker, ents[k].keys).(senders := TrackSenders(joined))
    by {
      forall k | 0 <= k < |members| && members[k] !in members[k + 1..] {
        ConnectAllFreshPeers(joined, members, ents, k);
      }
    }
    r
  }

  /** joinChat: request `join`, remember the chat id and own name, then
      open an initiator connection to every member the relay lists. */
  function JoinChat(c: Client, env: Env, chatId: string, name: string, password: string, id: string,
                    incoming: seq<Raw>, entropy: nat -> PeerEntropy): (r: Result<Handled, ClientError>)
    ensures var resp := Request(JoinKind, map["chatId" := chatId, "name" := name, "password" := password], id, incoming).1;
      && (resp.Err? ==> r == Err(resp.error))
      && (r.Ok? <==> resp.Ok? && resp.value.payload.MembersPayload?)
      && (r.Ok? ==>
          && resp.Ok? && resp.value.payload.MembersPayload?
          && var members := resp.value.payload.members;
             && r.value.client == c.(chatId := chatId, name := name, peers := r.value.client.peers)
             && (forall n :: n in r.value.client.peers <==> n in c.peers || n in members)
             && |r.value.effects| == |members|
             && (forall k :: 0 <= k < |members| ==> r.value.effects[k] == OfferSignal(members[k], entropy(k)))
             && forall k :: 0 <= k < |members| && members[k] !in members[k + 1..] ==>
                  var p := r.value.client.peers[members[k]];
                  p == P.New(members[k], p.worker, entropy(k).keys).(senders := TrackSenders(c)))
  {
    match Request(JoinKind, map["chatId" := chatId, "name" := name, "password" := password], id, incoming).1
    case Err(e) => Err(e)
    case Ok(m) =>
      if !m.payload.MembersPayload? then Err(Malformed)
      else
        Ok(JoinMembers(c, chatId, name, m.payload.members, entropy))
  }

  // ---------------------------------------------------------------------
  // The whole handshake

  /** The relay's stamp on a forwarded message. */
  function Relayed(fields: Fields, sender: string): Fields
  {
    fields["from" := sender]
  }

  /** The relay's forwarding and the client's reading of it agree: a
      signal sent on an admitted connection reaches the member it is
      addressed to as the same request stamped by `Relayed` with the
      sender's name. */
  lemma {:induction false} RelayDeliversSignal(s: S.State, env: S.Env, ent: S.Entropy, conn: S.ConnId, signal: P.Effect)
    requires S.WellSized(ent) && S.Valid(s)
    requires conn in s.phases && s.phases[conn].Relaying?
    requires signal.SendSignal? && IsRelayKind(signal.kind) && "to" in signal.fields
    requires signal.fields["to"] in S.Names(s.chats[s.phases[conn].chatId].conns)
    ensures var (s', outs) := S.Receive(s, env, ent, conn, Parsed(Req(signal.kind, Some(signal.fields), None)));
      && s' == s
      && |outs| == 1 && !outs[0].close
      && S.Member(signal.fields["to"], outs[0].to) in s.chats[s.phases[conn].chatId].conns
      && Parsed(outs[0].msg) == Parsed(Req(signal.kind, Some(Relayed(signal.fields, s.phases[conn].name)), None))
  {
  }

  /** An offer from `from`, as the relay delivers it. */
  function RelayedOffer(to: string, from: string, ent: PeerEntropy): Raw
  {
    Parsed(Req(OfferKind, Some(Relayed(OfferSignal(to, ent).fields, from)), None))
  }

  /** An answer from `from`, as the relay delivers it. */
  function RelayedAnswer(env: Env, to: string, from: string, ent: PeerEntropy): Raw
  {
    Parsed(Req(AnswerKind, Some(Relayed(AnswerSignal(env, to, ent).fields, from)), None))
  }

  /** A relayed offer makes the receiver the responder to its sender. */
  lemma {:induction false} OfferReachesResponder(b: Client, env: Env, from: string, entA: PeerEntropy, entB: PeerEntropy)
    ensures HandleMessage(b, env, entB, RelayedOffer(b.name, from, entA))
         == Ok(RespondToOffer(b, env, from, Bundle(entA.localDesc, entA.keys.pub), entB))
  {
    var f := Relayed(OfferSignal(b.name, entA).fields, from);
    assert "from" in f && "offer" in f && "pubKey" in f;
    assert f["from"] == from && f["offer"] == entA.localDesc && f["pubKey"] == entA.keys.pub;
  }

  /** A relayed answer from a known peer is accepted with the answer's
      description, public key and salt. */
  lemma {:induction false} AnswerReachesInitiator(a: Client, env: Env, from: string, entB: PeerEntropy, unused: PeerEntropy)
    requires from in a.peers
    ensures HandleMessage(a, env, unused, RelayedAnswer(env, a.name, from, entB))
         == Ok(AcceptAnswer(a, env, from, entB.localDesc, entB.keys.pub, env.b64encode(entB.salt)))
  {
    var f := Relayed(AnswerSignal(env, a.name, entB).fields, from);
    assert "from" in f && "answer" in f && "pubKey" in f && "salt" in f;
    assert f["from"] == from && f["answer"] == entB.localDesc && f["pubKey"] == entB.keys.pub;
    assert f["salt"] == env.b64encode(entB.salt);
  }

  /** Once an initiator accepts the answer, its only effects are the
      encrypt jobs for the tracks it attached when it offered, on its
      peer's worker and with the new secret: nothing was queued in
      between. */
  lemma {:induction false} AnswerStartsEncryption(a: Client, env: Env, to: string, entA: PeerEntropy, answer: P.Description, pubKey: string, salt: string)
    ensures var offering := Initiate(a, to, entA);
      var done := AcceptAnswer(offering.client, env, to, answer, pubKey, salt);
      && done.client.peers[to].secret.Some?
      && done.effects == P.EncryptJobs(WorkerIndex(a), done.client.peers[to].secret.value, TrackSenders(a))
  {
    var offering := Initiate(a, to, entA);
    var peerA := offering.client.peers[to];
    assert peerA.worker == WorkerIndex(a) && peerA.senders == TrackSenders(a);
    assert peerA.trackEvents == [] && peerA.candidates == [];
  }

  /** Key agreement end to end: A offers to B, B answers with a salt, both
      messages pass through the relay, and A and B end up with the same
      secret, provided Diffie-Hellman gives both the same shared value and
      base64 decoding undoes encoding. */
  lemma {:induction false} HandshakeAgrees(env: Env, a: Client, b: Client, entA: PeerEntropy, entB: PeerEntropy, unused: PeerEntropy)
    requires env.b64decode(env.b64encode(entB.salt)) == entB.salt
    requires env.crypto.dh(entA.keys.priv, env.b64decode(entB.keys.pub)) == env.crypto.dh(entB.keys.priv, env.b64decode(entA.keys.pub))
    ensures
      var offering := Initiate(a, b.name, entA);
      var answering := HandleMessage(b, env, entB, RelayedOffer(b.name, a.name, entA));
      && offering.effects == [OfferSignal(b.name, entA)]
      && answering.Ok?
      && answering.value.effects[|answering.value.effects| - 1] == AnswerSignal(env, a.name, entB)
      && var done := HandleMessage(offering.client, env, unused, RelayedAnswer(env, a.name, b.name, entB));
      && done.Ok?
      && done.value.client.peers[b.name].secret.Some?
      && done.value.client.peers[b.name].secret == answering.value.client.peers[a.name].secret
      && done.value.effects == P.EncryptJobs(WorkerIndex(a), done.value.client.peers[b.name].secret.value, TrackSenders(a))
  {
    var offering := Initiate(a, b.name, entA);
    var bundle := Bundle(entA.localDesc, entA.keys.pub);
    OfferReachesResponder(b, env, a.name, entA, entB);
    var answering := RespondToOffer(b, env, a.name, bundle, entB);
    ResponderEncryptsItsTracks(b, env, a.name, bundle, entB);
    AnswerReachesInitiator(offering.client, env, b.name, entB, unused);
    var peerA := offering.client.peers[b.name];
    assert peerA.privKey == entA.keys.priv && peerA.name == b.name;
    var done := AcceptAnswer(offering.client, env, b.name, entB.localDesc, entB.keys.pub, env.b64encode(entB.salt));
    assert done.client.peers[b.name].secret
        == Some(P.DeriveSecret(env.crypto, env.crypto.dh(entA.keys.priv, env.b64decode(entB.keys.pub)), a.name, b.name, entB.salt));
    assert answering.client.peers[a.name].secret
        == Some(P.DeriveSecret(env.crypto, env.crypto.dh(entB.keys.priv, env.b64decode(entA.keys.pub)), b.name, a.name, entB.salt));
    ContextSymmetric(a.name, b.name);
    AnswerStartsEncryption(a, env, b.name, entA, entB.localDesc, entB.keys.pub, env.b64encode(entB.salt));
  }
}

=== FILE: common.dfy ===
/** Shared vocabulary: bytes, optional values, results, and the clamping
    `slice` that JavaScript buffers and arrays use. */
module Common {

  /** One octet of a Node.js `Buffer`. */
  newtype byte = x: int | 0 <= x < 256

  type Bytes = seq<byte>

  /** A value that may be absent (`undefined`/`null` in the source). */
  datatype Option<+T> = None | Some(value: T)

  /** An outcome that is either a value or the error the source throws. */
  datatype Result<+T, +E> = Ok(value: T) | Err(error: E)

  /** `n` clamped to `len`, as JavaScript clamps slice bounds. */
  function Clamp(n: nat, len: nat): (r: nat)
    ensures r <= len && r <= n
    ensures r == n || r == len
  {
    if n <= len then n else len
  }

  /** `s.slice(lo, hi)` for non-negative bounds: both ends are clamped to
      the length, and a reversed range is empty. */
  function Slice<T>(s: seq<T>, lo: nat, hi: nat): (r: seq<T>)
    ensures lo <= hi <= |s| ==> r == s[lo..hi]
    ensures |r| <= |s|
  {
    var a := Clamp(lo, |s|);
    var b := Clamp(hi, |s|);
    if a <= b then s[a..b] else []
  }

  /** The first `n` elements, or all of `s` when it is shorter
      (`buf.slice(0, n)`). */
  function Take<T>(s: seq<T>, n: nat): (r: seq<T>)
    ensures n <= |s| ==> r == s[..n]
    ensures n > |s| ==> r == s
  {
    Slice(s, 0, n)
  }
}

=== FILE: frame.dfy ===
/** Per-frame authenticated encryption of lib/worker.js. A sent frame's
    data becomes `nonce(16) || tag(16) || ciphertext`; a received frame is
    split at those fixed offsets and opened. AES-256-GCM (NIST SP 800-38D)
    is an abstract AEAD pair. */
module Frame {
  import opened Common

  const NonceLen: nat := 16
  const TagLen: nat := 16
  const HeaderLen: nat := NonceLen + TagLen

  /** The output of `createCipheriv('aes-256-gcm', key, nonce)` over a
      plaintext: ciphertext and authentication tag. */
  datatype Sealed = Sealed(ciphertext: Bytes, tag: Bytes)

  /** `seal(key, nonce, plaintext)` and `open(key, nonce, tag, ciphertext)`;
      `open` yields `None` where `decipher.final()` throws because the tag
      does not verify. */
  datatype Aead = Aead(seal: (Bytes, Bytes, Bytes) -> Sealed, open: (Bytes, Bytes, Bytes, Bytes) -> Option<Bytes>)

  /** Opening what was sealed under the same key and nonce gives the
      plaintext back. */
  ghost predicate Correct(a: Aead)
  {
    forall key: Bytes, nonce: Bytes, plaintext: Bytes ::
      a.open(key, nonce, a.seal(key, nonce, plaintext).tag, a.seal(key, nonce, plaintext).ciphertext) == Some(plaintext)
  }

  /** GCM's tag is 128 bits. */
  ghost predicate TagSized(a: Aead)
  {
    forall key: Bytes, nonce: Bytes, plaintext: Bytes :: |a.seal(key, nonce, plaintext).tag| == TagLen
  }

  /** An RTCEncodedFrame: its data and, opaquely, everything else about it
      (timestamp, type, metadata), which the transforms leave alone. */
  datatype EncodedFrame = EncodedFrame(data: Bytes, meta: nat)

  /** The three fields of a payload. */
  datatype Parts = Parts(nonce: Bytes, tag: Bytes, ciphertext: Bytes)

  /** `Buffer.concat([nonce, tag, ciphertext])`. */
  function Join(p: Parts): Bytes
  {
    p.nonce + p.tag + p.ciphertext
  }

  /** The receiver's split: `data.slice(0, 16)`, `data.slice(16, 32)`,
      `data.slice(32)`; a payload shorter than 32 bytes yields short
      fields. */
  function Split(data: Bytes): (p: Parts)
    ensures |p.nonce| <= NonceLen && |p.tag| <= TagLen
    ensures |data| >= HeaderLen ==> |p.nonce| == NonceLen && |p.tag| == TagLen && |p.ciphertext| == |data| - HeaderLen
  {
    Parts(Slice(data, 0, NonceLen), Slice(data, NonceLen, HeaderLen), Slice(data, HeaderLen, |data|))
  }

  /** Framing round trip: splitting `nonce || tag || ct` gives back the
      three fields whenever the first two are 16 bytes each. */
  lemma SplitJoin(p: Parts)
    requires |p.nonce| == NonceLen && |p.tag| == TagLen
    ensures Split(Join(p)) == p
  {
    var d := Join(p);
    assert d[..NonceLen] == p.nonce;
    assert d[NonceLen..HeaderLen] == p.tag;
    assert d[HeaderLen..] == p.ciphertext;
  }

  /** And the other way: the three slices of any payload, of any length,
      concatenate back to it. */
  lemma JoinSplit(data: Bytes)
    ensures Join(Split(data)) == data
  {
    if |data| < NonceLen {
      assert Split(data) == Parts(data, [], []);
    } else if |data| < HeaderLen {
      assert Split(data) == Parts(data[..NonceLen], data[NonceLen..], []);
    } else {
      assert data == data[..NonceLen] + data[NonceLen..HeaderLen] + data[HeaderLen..];
    }
  }

  /** The sender transform on one frame, with `nonce` the 16 random bytes
      drawn for it: the data becomes `nonce || tag || ciphertext`. */
  function EncryptFrame(a: Aead, key: Bytes, nonce: Bytes, f: EncodedFrame): (r: EncodedFrame)
    ensures r.meta == f.meta
    ensures |nonce| == NonceLen && TagSized(a) ==>
      Split(r.data) == Parts(nonce, a.seal(key, nonce, f.data).tag, a.seal(key, nonce, f.data).ciphertext)
  {
    var sealed := a.seal(key, nonce, f.data);
    var parts := Parts(nonce, sealed.tag, sealed.ciphertext);
    if |nonce| == NonceLen && |sealed.tag| == TagLen then SplitJoin(parts); f.(data := Join(parts))
    else f.(data := Join(parts))
  }

  /** The receiver transform on one frame: `None` when the tag check fails,
      in which case nothing is enqueued. */
  function DecryptFrame(a: Aead, key: Bytes, f: EncodedFrame): (r: Option<EncodedFrame>)
    ensures var p := Split(f.data);
      && (r.None? <==> a.open(key, p.nonce, p.tag, p.ciphertext).None?)
      && (r.Some? ==> r.value == f.(data := a.open(key, p.nonce, p.tag, p.ciphertext).value))
  {
    var p := Split(f.data);
    match a.open(key, p.nonce, p.tag, p.ciphertext)
    case None => None
    case Some(plaintext) => Some(f.(data := plaintext))
  }

  /** The receiver undoes the sender: with a correct AEAD, decrypting an
      encrypted frame restores the frame exactly. */
  lemma FrameRoundTrip(a: Aead, key: Bytes, nonce: Bytes, f: EncodedFrame)
    requires Correct(a) && TagSized(a) && |nonce| == NonceLen
    ensures DecryptFrame(a, key, EncryptFrame(a, key, nonce, f)) == Some(f)
  {
  }

  // ---------------------------------------------------------------------
  // Transform streams

  /** onmessage's choice: 'encrypt' selects the sender transform, any other
      operation the receiver transform. */
  datatype Direction = Encrypt | Decrypt

  function SelectTransform(operation: string): (d: Direction)
    ensures d == Encrypt <==> operation == "encrypt"
  {
    if operation == "encrypt" then Encrypt else Decrypt
  }

  /** The sender transform over a stream, one fresh nonce per frame. */
  function SenderStream(a: Aead, key: Bytes, nonces: seq<Bytes>, frames: seq<EncodedFrame>): (out: seq<EncodedFrame>)
    requires |nonces| == |frames|
    ensures |out| == |frames|
    ensures forall i :: 0 <= i < |frames| ==> out[i] == EncryptFrame(a, key, nonces[i], frames[i])
  {
    if frames == [] then []
    else [EncryptFrame(a, key, nonces[0], frames[0])] + SenderStream(a, key, nonces[1..], frames[1..])
  }

  /** What a piped transform stream produced, and whether it ended in an
      error. */
  datatype Piped = Piped(out: seq<EncodedFrame>, errored: bool)

  /** The receiver stream as the source writes it: `decrypt` throws out of
      `transform`, which errors the TransformStream, so the pipe stops at
      the first frame that fails and no later frame is delivered. */
  function ReceiverStreamAsWritten(a: Aead, key: Bytes, frames: seq<EncodedFrame>): (r: Piped)
    ensures |r.out| <= |frames|
    ensures forall i :: 0 <= i < |r.out| ==> DecryptFrame(a, key, frames[i]) == Some(r.out[i])
    ensures r.errored <==> |r.out| < |frames|
    ensures |r.out| < |frames| ==> DecryptFrame(a, key, frames[|r.out|]).None?
  {
    if frames == [] then Piped([], false)
    else
      match DecryptFrame(a, key, frames[0])
      case None => Piped([], true)
      case Some(g) =>
        var rest := ReceiverStreamAsWritten(a, key, frames[1..]);
        Piped([g] + rest.out, rest.errored)
  }

  /** As written the receive pipe errors exactly when some frame fails
      authentication. */
  lemma {:induction false} AsWrittenErrorsIffSomeFails(a: Aead, key: Bytes, frames: seq<EncodedFrame>)
    ensures ReceiverStreamAsWritten(a, key, frames).errored
        <==> exists i :: 0 <= i < |frames| && DecryptFrame(a, key, frames[i]).None?
  {
    if frames != [] && DecryptFrame(a, key, frames[0]).Some? {
      AsWrittenErrorsIffSomeFails(a, key, frames[1..]);
      if exists i :: 0 <= i < |frames| && DecryptFrame(a, key, frames[i]).None? {
        var i :| 0 <= i < |frames| && DecryptFrame(a, key, frames[i]).None?;
        assert frames[1..][i - 1] == frames[i];
      }
    }
  }

  /** The receiver stream with a failing frame dropped and the stream kept
      going, as intended: each frame is handled on its own. */
  function ReceiverStream(a: Aead, key: Bytes, frames: seq<EncodedFrame>): (out: seq<EncodedFrame>)
    ensures |out| <= |frames|
    ensures forall g :: g in out ==> exists i :: 0 <= i < |frames| && DecryptFrame(a, key, frames[i]) == Some(g)
    ensures forall i :: 0 <= i < |frames| && DecryptFrame(a, key, frames[i]).Some? ==> DecryptFrame(a, key, frames[i]).value in out
  {
    if frames == [] then []
    else
      (match DecryptFrame(a, key, frames[0])
       case None => []
       case Some(g) => [g])
      + ReceiverStream(a, key, frames[1..])
  }

  /** A frame that fails authentication contributes nothing, in either
      version. */
  lemma FailedFrameEnqueuesNothing(a: Aead, key: Bytes, f: EncodedFrame, rest: seq<EncodedFrame>)
    requires DecryptFrame(a, key, f).None?
    ensures ReceiverStream(a, key, [f] + rest) == ReceiverStream(a, key, rest)
    ensures ReceiverStreamAsWritten(a, key, [f] + rest).out == []
  {
    assert ([f] + rest)[1..] == rest;
  }

  /** Frames are handled independently: the output for a concatenation is
      the concatenation of the outputs. */
  lemma {:induction false} ReceiverStreamAppend(a: Aead, key: Bytes, xs: seq<EncodedFrame>, ys: seq<EncodedFrame>)
    ensures ReceiverStream(a, key, xs + ys) == ReceiverStream(a, key, xs) + ReceiverStream(a, key, ys)
  {
    if xs == [] {
      assert xs + ys == ys;
    } else {
      assert (xs + ys)[1..] == xs[1..] + ys;
      ReceiverStreamAppend(a, key, xs[1..], ys);
    }
  }

  /** The finding: one frame that fails authentication, followed by a good
      one. As written the good frame is never delivered and the stream is
      left errored; the intended behaviour delivers it. */
  lemma {:induction false} BadFrameStallsStream(a: Aead, key: Bytes, bad: EncodedFrame, good: EncodedFrame)
    requires DecryptFrame(a, key, bad).None? && DecryptFrame(a, key, good).Some?
    ensures ReceiverStreamAsWritten(a, key, [bad, good]) == Piped([], true)
    ensures ReceiverStream(a, key, [bad, good]) == [DecryptFrame(a, key, good).value]
  {
    assert [bad, good][1..] == [good];
    assert [good][1..] == [];
  }

  /** Stream round trip: what the sender stream emits, the receiver stream
      turns back into the original frames, in order; as written it does so
      too and does not error. */
  lemma {:induction false} StreamRoundTrip(a: Aead, key: Bytes, nonces: seq<Bytes>, frames: seq<EncodedFrame>)
    requires Correct(a) && TagSized(a) && |nonces| == |frames|
    requires forall i :: 0 <= i < |nonces| ==> |nonces[i]| == NonceLen
    ensures ReceiverStream(a, key, SenderStream(a, key, nonces, frames)) == frames
    ensures ReceiverStreamAsWritten(a, key, SenderStream(a, key, nonces, frames)) == Piped(frames, false)
  {
    if frames != [] {
      var sent := SenderStream(a, key, nonces, frames);
      FrameRoundTrip(a, key, nonces[0], frames[0]);
      StreamRoundTrip(a, key, nonces[1..], frames[1..]);
      assert sent[1..] == SenderStream(a, key, nonces[1..], frames[1..]);
    }
  }

  /** onmessage: pipe the job's frames through the selected transform. A
      decrypt job runs the receiver stream as the source writes it, which
      errors and stops at the first frame that fails. */
  function RunJob(a: Aead, operation: string, secret: Bytes, nonces: seq<Bytes>, frames: seq<EncodedFrame>): (r: Piped)
    requires |nonces| == |frames|
    ensures operation == "encrypt" ==> r == Piped(SenderStream(a, secret, nonces, frames), false)
    ensures operation != "encrypt" ==> r == ReceiverStreamAsWritten(a, secret, frames)
  {
    match SelectTransform(operation)
    case Encrypt => Piped(SenderStream(a, secret, nonces, frames), false)
    case Decrypt => ReceiverStreamAsWritten(a, secret, frames)
  }

  /** A decrypt job over the output of an encrypt job with the same secret
      gives back the original frames without an error (a decrypt job draws
      no nonces). */
  lemma JobsRoundTrip(a: Aead, secret: Bytes, nonces: seq<Bytes>, frames: seq<EncodedFrame>, unused: seq<Bytes>)
    requires Correct(a) && TagSized(a) && |nonces| == |frames| && |unused| == |frames|
    requires forall i :: 0 <= i < |nonces| ==> |nonces[i]| == NonceLen
    ensures var sent := RunJob(a, "encrypt", secret, nonces, frames);
      !sent.errored && RunJob(a, "decrypt", secret, unused, sent.out) == Piped(frames, false)
  {
    StreamRoundTrip(a, secret, nonces, frames);
  }
}

=== FILE: kdf.dfy ===
/** Key derivation of lib/peer.js: the HKDF construction of RFC 5869 over
    an abstract HMAC-SHA256, and the context string that binds a derived
    key to the unordered pair of participant names. */
module Kdf {
  import opened Common

  /** HMAC-SHA256 as a function of `(key, data)`. */
  type Hmac = (Bytes, Bytes) -> Bytes

  const HashLen: nat := 32

  /** What the model relies on about the digest: it is always 32 bytes. */
  ghost predicate DigestSized(hmac: Hmac)
  {
    forall key: Bytes, data: Bytes :: |hmac(key, data)| == HashLen
  }

  /** The counter octet of round `i` (from 0): `Buffer.from([1 + i])`,
      which keeps only the low eight bits. */
  function Counter(i: nat): byte
  {
    ((i + 1) % 256) as byte
  }

  /** T(i) of the expand loop, with T(0) empty. */
  function Block(hmac: Hmac, prk: Bytes, info: Bytes, i: nat): Bytes
  {
    if i == 0 then [] else hmac(prk, Block(hmac, prk, info, i - 1) + info + [Counter(i - 1)])
  }

  /** T(1) || ... || T(n). */
  function Blocks(hmac: Hmac, prk: Bytes, info: Bytes, n: nat): Bytes
  {
    if n == 0 then [] else Blocks(hmac, prk, info, n - 1) + Block(hmac, prk, info, n)
  }

  /** `Math.ceil(length / 32)`. */
  function NumBlocks(length: nat): (n: nat)
    ensures n * HashLen >= length
    ensures n == 0 || (n - 1) * HashLen < length
  {
    (length + HashLen - 1) / HashLen
  }

  /** hkdf({ikm, info, length, salt}): PRK = HMAC(salt, ikm), then
      `ceil(length/32)` expand rounds, truncated to `length` bytes; with a
      32-byte digest the result is exactly `length` bytes. */
  function Hkdf(hmac: Hmac, ikm: Bytes, info: Bytes, length: nat, salt: Bytes): (r: Bytes)
    ensures DigestSized(hmac) ==> |r| == length
  {
    BlocksLength(hmac, hmac(salt, ikm), info, NumBlocks(length));
    Take(Blocks(hmac, hmac(salt, ikm), info, NumBlocks(length)), length)
  }

  /** The expand loop as the source writes it, with a running `t` and a
      growing output buffer. */
  method HkdfLoop(hmac: Hmac, ikm: Bytes, info: Bytes, length: nat, salt: Bytes) returns (okm: Bytes)
    ensures okm == Hkdf(hmac, ikm, info, length, salt)
  {
    var key := hmac(salt, ikm);
    var t: Bytes := [];
    var acc: Bytes := [];
    var i := 0;
    var n := NumBlocks(length);
    while i < n
      invariant 0 <= i <= n
      invariant t == Block(hmac, key, info, i)
      invariant acc == Blocks(hmac, key, info, i)
    {
      var data := t + info + [Counter(i)];
      t := hmac(key, data);
      acc := acc + t;
      i := i + 1;
    }
    okm := Take(acc, length);
  }

  lemma {:induction false} BlocksLength(hmac: Hmac, prk: Bytes, info: Bytes, n: nat)
    ensures DigestSized(hmac) ==> |Blocks(hmac, prk, info, n)| == n * HashLen
  {
    if n > 0 && DigestSized(hmac) {
      BlocksLength(hmac, prk, info, n - 1);
      assert |Block(hmac, prk, info, n)| == HashLen;
    }
  }

  /** Earlier rounds are a prefix of later ones. */
  lemma {:induction false} BlocksPrefix(hmac: Hmac, prk: Bytes, info: Bytes, m: nat, n: nat)
    requires m <= n
    ensures Blocks(hmac, prk, info, m) <= Blocks(hmac, prk, info, n)
  {
    if m < n {
      BlocksPrefix(hmac, prk, info, m, n - 1);
    }
  }

  /** Round `j` (from 1) occupies bytes [32(j-1), 32j) of the output. */
  lemma {:induction false} BlockPosition(hmac: Hmac, prk: Bytes, info: Bytes, j: nat, n: nat)
    requires DigestSized(hmac) && 1 <= j <= n
    ensures |Blocks(hmac, prk, info, n)| == n * HashLen
    ensures Blocks(hmac, prk, info, n)[(j - 1) * HashLen .. j * HashLen] == Block(hmac, prk, info, j)
  {
    BlocksLength(hmac, prk, info, n);
    BlocksLength(hmac, prk, info, j - 1);
    BlocksPrefix(hmac, prk, info, j, n);
    assert Blocks(hmac, prk, info, j) == Blocks(hmac, prk, info, j - 1) + Block(hmac, prk, info, j);
  }

  /** The output is the concatenation of the rounds: every whole round
      that fits in `length` appears at its offset. */
  lemma HkdfLayout(hmac: Hmac, ikm: Bytes, info: Bytes, length: nat, salt: Bytes, j: nat)
    requires DigestSized(hmac) && 1 <= j && j * HashLen <= length
    ensures |Hkdf(hmac, ikm, info, length, salt)| == length
    ensures Hkdf(hmac, ikm, info, length, salt)[(j - 1) * HashLen .. j * HashLen]
         == Block(hmac, hmac(salt, ikm), info, j)
  {
    var n := NumBlocks(length);
    BlockPosition(hmac, hmac(salt, ikm), info, j, n);
  }

  /** Asking for fewer bytes gives a prefix of asking for more. */
  lemma HkdfPrefix(hmac: Hmac, ikm: Bytes, info: Bytes, short: nat, long: nat, salt: Bytes)
    requires DigestSized(hmac) && short <= long
    ensures |Hkdf(hmac, ikm, info, long, salt)| == long
    ensures Hkdf(hmac, ikm, info, short, salt) == Hkdf(hmac, ikm, info, long, salt)[..short]
  {
    var prk := hmac(salt, ikm);
    BlocksLength(hmac, prk, info, NumBlocks(short));
    BlocksLength(hmac, prk, info, NumBlocks(long));
    BlocksPrefix(hmac, prk, info, NumBlocks(short), NumBlocks(long));
  }

  // ---------------------------------------------------------------------
  // RFC 5869 as written in the standard

  const MaxRounds := 255

  /** T(i) of section 2.3 of RFC 5869, whose counter is the octet `i`. */
  function RfcT(hmac: Hmac, prk: Bytes, info: Bytes, i: nat): Bytes
    requires i <= MaxRounds
  {
    if i == 0 then [] else hmac(prk, RfcT(hmac, prk, info, i - 1) + info + [i as byte])
  }

  function RfcConcat(hmac: Hmac, prk: Bytes, info: Bytes, n: nat): Bytes
    requires n <= MaxRounds
  {
    if n == 0 then [] else RfcConcat(hmac, prk, info, n - 1) + RfcT(hmac, prk, info, n)
  }

  /** HKDF-Extract (section 2.2) followed by HKDF-Expand (section 2.3) of
      RFC 5869, for L <= 255 * HashLen. */
  function RfcHkdf(hmac: Hmac, ikm: Bytes, info: Bytes, length: nat, salt: Bytes): Bytes
    requires length <= MaxRounds * HashLen
  {
    Take(RfcConcat(hmac, hmac(salt, ikm), info, NumBlocks(length)), length)
  }

  lemma {:induction false} BlockIsRfcT(hmac: Hmac, prk: Bytes, info: Bytes, i: nat)
    requires i <= MaxRounds
    ensures Block(hmac, prk, info, i) == RfcT(hmac, prk, info, i)
  {
    if i > 0 {
      BlockIsRfcT(hmac, prk, info, i - 1);
      assert Counter(i - 1) == i as byte;
    }
  }

  lemma {:induction false} BlocksAreRfcConcat(hmac: Hmac, prk: Bytes, info: Bytes, n: nat)
    requires n <= MaxRounds
    ensures Blocks(hmac, prk, info, n) == RfcConcat(hmac, prk, info, n)
  {
    if n > 0 {
      BlocksAreRfcConcat(hmac, prk, info, n - 1);
      BlockIsRfcT(hmac, prk, info, n);
    }
  }

  /** Within the length bound of RFC 5869 the source's hkdf is exactly
      HKDF; beyond it the counter octet wraps, which the source does not
      check. */
  lemma HkdfIsRfc5869(hmac: Hmac, ikm: Bytes, info: Bytes, length: nat, salt: Bytes)
    requires length <= MaxRounds * HashLen
    ensures Hkdf(hmac, ikm, info, length, salt) == RfcHkdf(hmac, ikm, info, length, salt)
  {
    BlocksAreRfcConcat(hmac, hmac(salt, ikm), info, NumBlocks(length));
  }

  // ---------------------------------------------------------------------
  // The context string

  /** JavaScript's `a < b` on strings: lexicographic order of the
      characters, a proper prefix coming first. No string is below
      itself. */
  function Less(a: string, b: string): (r: bool)
    ensures r ==> a != b
    ensures a < b ==> r
  {
    if b == [] then false
    else if a == [] then true
    else if a[0] != b[0] then a[0] < b[0]
    else Less(a[1..], b[1..])
  }

  /** `Less` is trichotomous: exactly one of `a < b`, `a == b`, `b < a`
      holds. Transitivity is LessTransitive. */
  lemma {:induction false} LessTrichotomy(a: string, b: string)
    ensures !Less(a, a)
    ensures a != b ==> Less(a, b) || Less(b, a)
    ensures !(Less(a, b) && Less(b, a))
  {
    if a != [] && b != [] && a[0] == b[0] {
      LessTrichotomy(a[1..], b[1..]);
      if a != b {
        assert a == [a[0]] + a[1..] && b == [b[0]] + b[1..];
      }
    }
  }

  /** `Less` is transitive, so with LessTrichotomy a strict total order. */
  lemma {:induction false} LessTransitive(a: string, b: string, c: string)
    requires Less(a, b) && Less(b, c)
    ensures Less(a, c)
  {
    if a != [] && b != [] && c != [] && a[0] == b[0] && b[0] == c[0] {
      LessTransitive(a[1..], b[1..], c[1..]);
    }
  }

  /** `[a, b].sort()`: the two names, smaller first. */
  function SortPair(a: string, b: string): (r: seq<string>)
    ensures |r| == 2 && multiset(r) == multiset{a, b}
    ensures !Less(r[1], r[0])
  {
    LessTrichotomy(a, b);
    if Less(b, a) then [b, a] else [a, b]
  }

  /** `xs.join(sep)`. */
  function Join(xs: seq<string>, sep: string): string
  {
    if xs == [] then []
    else if |xs| == 1 then xs[0]
    else xs[0] + sep + Join(xs[1..], sep)
  }

  /** The context string `[a, b].sort().join(',')`: the smaller name, a
      comma, the larger name. */
  function Context(a: string, b: string): (r: string)
    ensures r == if Less(b, a) then b + "," + a else a + "," + b
  {
    var p := SortPair(a, b);
    assert Join(p[1..], ",") == p[1];
    Join(p, ",")
  }

  /** Both participants build the same context string, whichever of the
      two names is their own. */
  lemma ContextSymmetric(a: string, b: string)
    ensures Context(a, b) == Context(b, a)
  {
    LessTrichotomy(a, b);
  }
}

=== FILE: peer.dfy ===
/** One remote participant's session state, after lib/peer.js: the
    Diffie-Hellman key pair, the derived secret, and three queues that
    hold early events until the state they need exists (ICE candidates
    until a remote description, outbound senders and inbound track
    events until a secret). Browser and worker calls are recorded as
    effects in the order the source makes them. */
module Peer {
  import opened Common
  import opened Wire
  import opened Kdf

  type Candidate = string
  type Description = string
  type TrackId = nat
  type StreamId = nat
  type ReceiverId = nat

  /** The RTP sender `conn.addTrack(track, stream)` returns. */
  datatype Sender = Sender(track: TrackId, stream: StreamId)

  /** An RTCTrackEvent: the track's kind, its receiver, and `streams[0]`. */
  datatype TrackEvent = TrackEvent(kind: string, receiver: ReceiverId, stream: StreamId)

  /** The encoded-frame streams handed to a worker. */
  datatype Pipe = SenderPipe(sender: Sender) | ReceiverPipe(receiver: ReceiverId)

  /** The message posted to a worker: `{operation, secret, streams}`. */
  datatype Job = Job(operation: string, secret: Bytes, pipe: Pipe)

  const EncryptOp := "encrypt"
  const DecryptOp := "decrypt"

  /** Calls out of a peer, in order. */
  datatype Effect =
    | ApplyCandidate(candidate: Candidate)                  // conn.addIceCandidate
    | PostJob(worker: nat, job: Job)                        // worker.postMessage
    | EmitStream(kind: string, name: string, stream: StreamId)  // client.emit('stream')
    | SendSignal(kind: string, fields: Fields)              // client.send

  /** The primitives a peer calls: the modp14 Diffie-Hellman shared value
      `(own private key, remote public key)`, HMAC-SHA256, and UTF-8
      encoding of the context string. */
  datatype Crypto = Crypto(dh: (Bytes, Bytes) -> Bytes, hmac: Hmac, utf8: string -> Bytes)

  /** A freshly generated key pair; the public half is base64 text. */
  datatype KeyPair = KeyPair(priv: Bytes, pub: string)

  datatype Peer = Peer(
    name: string,                               // the remote participant
    worker: nat,                                // index of the worker that runs its transforms
    privKey: Bytes,
    pubKey: string,
    remoteDescription: Option<Description>,
    candidates: seq<Candidate>,
    secret: Option<Bytes>,
    senders: seq<Sender>,
    trackEvents: seq<TrackEvent>)

  /** The result of an operation: the new state and the effects it made. */
  datatype Step = Step(peer: Peer, effects: seq<Effect>)

  const SecretLen: nat := 32

  /** The constructor: no secret, nothing queued, no remote description. */
  function New(name: string, worker: nat, keys: KeyPair): (p: Peer)
    ensures p.secret.None? && p.remoteDescription.None?
    ensures p.candidates == [] && p.senders == [] && p.trackEvents == []
    ensures p.name == name && p.worker == worker && p.privKey == keys.priv && p.pubKey == keys.pub
  {
    Peer(name, worker, keys.priv, keys.pub, None, [], None, [], [])
  }

  /** The queue invariant: once a remote description exists no candidate
      waits. */
  predicate CandidatesSettled(p: Peer)
  {
    p.remoteDescription.Some? ==> p.candidates == []
  }

  // ---------------------------------------------------------------------
  // ICE candidates

  /** addIceCandidate: queue the candidate while there is no remote
      description, otherwise apply it at once. */
  function AddIceCandidate(p: Peer, c: Candidate): (r: Step)
    ensures p.remoteDescription.None? ==>
      r.peer == p.(candidates := p.candidates + [c]) && r.effects == []
    ensures p.remoteDescription.Some? ==>
      r.peer == p && r.effects == [ApplyCandidate(c)]
    ensures CandidatesSettled(p) ==> CandidatesSettled(r.peer)
  {
    if p.remoteDescription.None? then Step(p.(candidates := p.candidates + [c]), [])
    else Step(p, [ApplyCandidate(c)])
  }

  /** `candidates.map(c => conn.addIceCandidate(c))`. */
  function ApplyAll(cs: seq<Candidate>): (es: seq<Effect>)
    ensures |es| == |cs|
    ensures forall i :: 0 <= i < |cs| ==> es[i] == ApplyCandidate(cs[i])
  {
    if cs == [] then [] else [ApplyCandidate(cs[0])] + ApplyAll(cs[1..])
  }

  /** setRemoteDescription: record the description, then apply every
      queued candidate in arrival order and empty the queue. */
  function SetRemoteDescription(p: Peer, d: Description): (r: Step)
    ensures r.peer == p.(remoteDescription := Some(d), candidates := [])
    ensures |r.effects| == |p.candidates|
    ensures forall i :: 0 <= i < |p.candidates| ==> r.effects[i] == ApplyCandidate(p.candidates[i])
    ensures CandidatesSettled(r.peer)
  {
    Step(p.(remoteDescription := Some(d), candidates := []), ApplyAll(p.candidates))
  }

  /** What reaches a peer from the signaling side and the browser. */
  datatype Signal = GotCandidate(candidate: Candidate) | GotDescription(desc: Description)

  function CandidatesOf(sigs: seq<Signal>): seq<Candidate>
  {
    if sigs == [] then []
    else (if sigs[0].GotCandidate? then [sigs[0].candidate] else []) + CandidatesOf(sigs[1..])
  }

  /** The candidates the effects apply, in order. */
  function Applied(es: seq<Effect>): seq<Candidate>
  {
    if es == [] then []
    else (if es[0].ApplyCandidate? then [es[0].candidate] else []) + Applied(es[1..])
  }

  /** Runs a sequence of signals against a peer. */
  function Run(p: Peer, sigs: seq<Signal>): Step
    decreases |sigs|
  {
    if sigs == [] then Step(p, [])
    else
      var first := match sigs[0]
        case GotCandidate(c) => AddIceCandidate(p, c)
        case GotDescription(d) => SetRemoteDescription(p, d);
      var rest := Run(first.peer, sigs[1..]);
      Step(rest.peer, first.effects + rest.effects)
  }

  lemma {:induction false} AppliedAppend(a: seq<Effect>, b: seq<Effect>)
    ensures Applied(a + b) == Applied(a) + Applied(b)
  {
    if a == [] {
      assert a + b == b;
    } else {
      assert (a + b)[1..] == a[1..] + b;
      AppliedAppend(a[1..], b);
    }
  }

  lemma {:induction false} AppliedAll(cs: seq<Candidate>)
    ensures Applied(ApplyAll(cs)) == cs
  {
    if cs != [] {
      AppliedAll(cs[1..]);
    }
  }

  /** Every candidate is applied exactly once and in arrival order: the
      candidates applied over any run, followed by those still queued,
      are the queue at the start followed by every candidate received.
      Once a remote description exists the queue is empty. */
  lemma {:induction false} CandidatesAppliedInOrder(p: Peer, sigs: seq<Signal>)
    requires CandidatesSettled(p)
    ensures var r := Run(p, sigs);
      && Applied(r.effects) + r.peer.candidates == p.candidates + CandidatesOf(sigs)
      && CandidatesSettled(r.peer)
      && (p.remoteDescription.Some? ==> r.peer.remoteDescription.Some?)
      && (r.peer.remoteDescription.None? ==> Applied(r.effects) == [])
    decreases |sigs|
  {
    if sigs != [] {
      var first := match sigs[0]
        case GotCandidate(c) => AddIceCandidate(p, c)
        case GotDescription(d) => SetRemoteDescription(p, d);
      CandidatesAppliedInOrder(first.peer, sigs[1..]);
      var rest := Run(first.peer, sigs[1..]);
      AppliedAppend(first.effects, rest.effects);
      match sigs[0]
      case GotCandidate(c) =>
        assert CandidatesOf(sigs) == [c] + CandidatesOf(sigs[1..]);
        if p.remoteDescription.None? {
          assert Applied(first.effects) == [];
          assert (p.candidates + [c]) + CandidatesOf(sigs[1..]) == p.candidates + ([c] + CandidatesOf(sigs[1..]));
        } else {
          assert p.candidates == [] && first.peer == p;
          assert Applied(first.effects) == [c];
          assert [] + CandidatesOf(sigs[1..]) == CandidatesOf(sigs[1..]);
          assert ([c] + Applied(rest.effects)) + rest.peer.candidates == [c] + (Applied(rest.effects) + rest.peer.candidates);
        }
      case GotDescription(d) =>
        AppliedAll(p.candidates);
        assert CandidatesOf(sigs) == CandidatesOf(sigs[1..]);
    }
  }

  // ---------------------------------------------------------------------
  // The secret and the media queues

  /** The worker job that encrypts one sender's frames. */
  function EncryptJobs(worker: nat, secret: Bytes, senders: seq<Sender>): (es: seq<Effect>)
    ensures |es| == |senders|
    ensures forall i :: 0 <= i < |senders| ==>
      es[i] == PostJob(worker, Job(EncryptOp, secret, SenderPipe(senders[i])))
  {
    if senders == [] then []
    else [PostJob(worker, Job(EncryptOp, secret, SenderPipe(senders[0])))] + EncryptJobs(worker, secret, senders[1..])
  }

  /** ontrack once the secret exists: hand the receiver to the worker to
      decrypt and announce the remote stream. */
  function BindReceiver(worker: nat, name: string, secret: Bytes, ev: TrackEvent): seq<Effect>
  {
    [PostJob(worker, Job(DecryptOp, secret, ReceiverPipe(ev.receiver))), EmitStream(ev.kind, name, ev.stream)]
  }

  /** `trackEvents.forEach(ontrack)` once the secret exists. */
  function ReplayTracks(worker: nat, name: string, secret: Bytes, evs: seq<TrackEvent>): (es: seq<Effect>)
    ensures |es| == 2 * |evs|
    ensures forall i :: 0 <= i < |evs| ==>
      && es[2 * i] == PostJob(worker, Job(DecryptOp, secret, ReceiverPipe(evs[i].receiver)))
      && es[2 * i + 1] == EmitStream(evs[i].kind, name, evs[i].stream)
  {
    if evs == [] then []
    else
      var rest := ReplayTracks(worker, name, secret, evs[1..]);
      assert forall i :: 1 <= i < |evs| ==> 2 * i == 2 + 2 * (i - 1);
      BindReceiver(worker, name, secret, evs[0]) + rest
  }

  /** The key a peer derives: 32 bytes of HKDF over the Diffie-Hellman
      value, with the two names, smaller first, joined by a comma as info. */
  function DeriveSecret(env: Crypto, ikm: Bytes, localName: string, remoteName: string, salt: Bytes): (r: Bytes)
    ensures DigestSized(env.hmac) ==> |r| == SecretLen
    ensures var info := if Less(localName, remoteName) then localName + "," + remoteName else remoteName + "," + localName;
      r == Hkdf(env.hmac, ikm, env.utf8(info), SecretLen, salt)
  {
    Hkdf(env.hmac, ikm, env.utf8(Context(remoteName, localName)), SecretLen, salt)
  }

  datatype Derived = Derived(peer: Peer, salt: Bytes, effects: seq<Effect>)

  /** computeSecret: derive the secret from the remote public key, using
      the salt supplied or else `newSalt`; bind every queued sender to the
      encrypt path and replay every buffered track event; empty both
      queues; return the salt used. */
  function ComputeSecret(env: Crypto, p: Peer, pubKey: Bytes, localName: string, salt: Option<Bytes>, newSalt: Bytes): (r: Derived)
    ensures r.salt == if salt.Some? then salt.value else newSalt
    ensures r.peer.secret == Some(DeriveSecret(env, env.dh(p.privKey, pubKey), localName, p.name, r.salt))
    ensures r.peer == p.(secret := r.peer.secret, senders := [], trackEvents := [])
    ensures |r.effects| == |p.senders| + 2 * |p.trackEvents|
    ensures forall i :: 0 <= i < |p.senders| ==>
      r.effects[i] == PostJob(p.worker, Job(EncryptOp, r.peer.secret.value, SenderPipe(p.senders[i])))
    ensures forall i :: 0 <= i < |p.trackEvents| ==>
      r.effects[|p.senders| + 2 * i] == PostJob(p.worker, Job(DecryptOp, r.peer.secret.value, ReceiverPipe(p.trackEvents[i].receiver)))
  {
    var used := if salt.Some? then salt.value else newSalt;
    var secret := DeriveSecret(env, env.dh(p.privKey, pubKey), localName, p.name, used);
    var effects := EncryptJobs(p.worker, secret, p.senders) + ReplayTracks(p.worker, p.name, secret, p.trackEvents);
    Derived(p.(secret := Some(secret), senders := [], trackEvents := []), used, effects)
  }

  /** Key agreement: the responder derives with a new salt, the
      initiator with the salt it is sent back, each from its own private
      key and the other's public key. When Diffie-Hellman gives both the
      same shared value, both derive the same secret, whichever way round
      the names sort. */
  lemma SecretsAgree(env: Crypto, initiator: Peer, responder: Peer, initiatorName: string, responderName: string,
                     initiatorPub: Bytes, responderPub: Bytes, newSalt: Bytes, unused: Bytes)
    requires initiator.name == responderName && responder.name == initiatorName
    requires env.dh(initiator.privKey, responderPub) == env.dh(responder.privKey, initiatorPub)
    ensures var answer := ComputeSecret(env, responder, initiatorPub, responderName, None, newSalt);
      && answer.salt == newSalt
      && ComputeSecret(env, initiator, responderPub, initiatorName, Some(answer.salt), unused).peer.secret
         == answer.peer.secret
  {
    ContextSymmetric(initiatorName, responderName);
  }

  /** addTrack: attach the track and remember its sender. A sender added
      after the secret exists is remembered but never bound. */
  function AddTrack(p: Peer, track: TrackId, stream: StreamId): (r: Step)
    ensures r.peer == p.(senders := p.senders + [Sender(track, stream)])
    ensures r.effects == []
  {
    Step(p.(senders := p.senders + [Sender(track, stream)]), [])
  }

  /** ontrack: buffer the event while there is no secret, otherwise bind a
      decrypt job with the current secret and announce the stream. */
  function OnTrack(p: Peer, ev: TrackEvent): (r: Step)
    ensures p.secret.None? ==> r.peer == p.(trackEvents := p.trackEvents + [ev]) && r.effects == []
    ensures p.secret.Some? ==>
      && r.peer == p
      && r.effects == [PostJob(p.worker, Job(DecryptOp, p.secret.value, ReceiverPipe(ev.receiver))),
                       EmitStream(ev.kind, p.name, ev.stream)]
  {
    if p.secret.None? then Step(p.(trackEvents := p.trackEvents + [ev]), [])
    else Step(p, BindReceiver(p.worker, p.name, p.secret.value, ev))
  }

  /** onicecandidate: forward a local candidate to the remote participant;
      the end-of-candidates event (no candidate) sends nothing. */
  function OnIceCandidate(p: Peer, candidate: Option<Candidate>): (r: seq<Effect>)
    ensures candidate.None? ==> r == []
    ensures candidate.Some? ==> r == [SendSignal(CandidateKind, map["candidate" := candidate.value, "to" := p.name])]
  {
    match candidate
    case None => []
    case Some(c) => [SendSignal(CandidateKind, map["candidate" := c, "to" := p.name])]
  }

  /** Delivers a run of track events, one `ontrack` after another. */
  function OnTracks(p: Peer, evs: seq<TrackEvent>): Step
    decreases |evs|
  {
    if evs == [] then Step(p, [])
    else
      var first := OnTrack(p, evs[0]);
      var rest := OnTracks(first.peer, evs[1..]);
      Step(rest.peer, first.effects + rest.effects)
  }

  /** Before the secret exists, track events are only buffered, in
      arrival order, and nothing is bound. */
  lemma {:induction false} EarlyTracksBuffered(p: Peer, evs: seq<TrackEvent>)
    requires p.secret.None?
    ensures OnTracks(p, evs) == Step(p.(trackEvents := p.trackEvents + evs), [])
    decreases |evs|
  {
    if evs == [] {
      assert p.trackEvents + evs == p.trackEvents;
    } else {
      var first := OnTrack(p, evs[0]);
      assert first.peer == p.(trackEvents := p.trackEvents + [evs[0]]) && first.effects == [];
      EarlyTracksBuffered(first.peer, evs[1..]);
      assert (p.trackEvents + [evs[0]]) + evs[1..] == p.trackEvents + evs;
    }
  }

  /** No track event is lost: events that arrive before the secret bind
      nothing, and computing the secret then binds every one of them, in
      arrival order, with the new secret, after the queued senders. */
  lemma EarlyTracksReplayedInOrder(env: Crypto, p: Peer, evs: seq<TrackEvent>, pubKey: Bytes,
                                   localName: string, salt: Option<Bytes>, newSalt: Bytes)
    requires p.secret.None?
    ensures var early := OnTracks(p, evs);
      && early.effects == []
      && var d := ComputeSecret(env, early.peer, pubKey, localName, salt, newSalt);
         && |d.effects| >= |p.senders|
         && d.effects[..|p.senders|] == EncryptJobs(p.worker, d.peer.secret.value, p.senders)
         && d.effects[|p.senders|..] == ReplayTracks(p.worker, p.name, d.peer.secret.value, p.trackEvents + evs)
  {
    EarlyTracksBuffered(p, evs);
    var early := OnTracks(p, evs);
    var d := ComputeSecret(env, early.peer, pubKey, localName, salt, newSalt);
    var secret := d.peer.secret.value;
    assert d.effects == EncryptJobs(p.worker, secret, p.senders) + ReplayTracks(p.worker, p.name, secret, p.trackEvents + evs);
  }
}

=== FILE: server.dfy ===
/** The relay server of lib/server.js: a registry of chats keyed by id,
    password-gated admission, and a two-phase per-connection protocol
    (a first `start`/`join` request, then relaying of `candidate`,
    `offer` and `answer` between members). Everything happens in one
    sequential step per received socket frame. */
module Server {
  import opened Common
  import opened Wire

  /** Identity of one WebSocket connection. */
  type ConnId = nat

  /** One entry of a chat's `conns` map. */
  datatype Member = Member(name: string, conn: ConnId)

  /** A chat room: its id, scrypt hash and salt of the password, and its
      members in insertion order (the iteration order of a JS `Map`). */
  datatype Chat = Chat(id: string, hash: Bytes, salt: Bytes, conns: seq<Member>)

  type Registry = map<string, Chat>

  /** The primitives the server calls but this model does not define:
      base58 encoding, scrypt with a 64-byte output `(password, salt)`,
      and UTF-8 encoding of a string (`Buffer.from(password)`). */
  datatype Env = Env(bs58: Bytes -> string, scrypt: (Bytes, Bytes) -> Bytes, utf8: string -> Bytes)

  /** The random bytes one first message may consume: 5 for the chat id
      and 16 for a new password salt. */
  datatype Entropy = Entropy(idBytes: Bytes, salt: Bytes)

  predicate WellSized(e: Entropy)
  {
    |e.idBytes| == IdBytes && |e.salt| == SaltBytes
  }

  const IdBytes := 5
  const SaltBytes := 16
  const ShortestId := 3

  /** The member names of a chat, in insertion order. */
  function Names(conns: seq<Member>): (r: seq<string>)
    ensures |r| == |conns|
    ensures forall i :: 0 <= i < |conns| ==> r[i] == conns[i].name
  {
    seq(|conns|, i requires 0 <= i < |conns| => conns[i].name)
  }

  predicate Unique(xs: seq<string>)
  {
    forall i, j :: 0 <= i < j < |xs| ==> xs[i] != xs[j]
  }

  /** `conns.get(name)`: the connection registered under `name`. */
  function Lookup(conns: seq<Member>, name: string): (r: Option<ConnId>)
    ensures r.None? <==> name !in Names(conns)
    ensures r.Some? ==> Member(name, r.value) in conns
  {
    if conns == [] then None
    else if conns[0].name == name then Some(conns[0].conn)
    else
      assert Names(conns) == [conns[0].name] + Names(conns[1..]);
      Lookup(conns[1..], name)
  }

  /** `xs.filter(key => key !== x)`. */
  function Without(xs: seq<string>, x: string): (r: seq<string>)
    ensures forall y :: y in r <==> y in xs && y != x
  {
    if xs == [] then []
    else (if xs[0] == x then [] else [xs[0]]) + Without(xs[1..], x)
  }

  /** Filtering out a name that was just appended, and occurs nowhere
      else, gives back the list as it was before the append. */
  lemma {:induction false} WithoutAppended(xs: seq<string>, x: string)
    requires x !in xs
    ensures Without(xs + [x], x) == xs
  {
    if xs == [] {
    } else {
      assert (xs + [x])[1..] == xs[1..] + [x];
      WithoutAppended(xs[1..], x);
    }
  }

  // ---------------------------------------------------------------------
  // Chat ids (genChatId)

  /** The id tried for prefix length `n`: the base58 encoding of the first
      `n` random bytes. */
  function Candidate(env: Env, buf: Bytes, n: nat): string
    requires n <= |buf|
  {
    env.bs58(buf[..n])
  }

  datatype ServerError = ServiceUnavailable

  /** Reference definition of chat-id choice: the first of the 3-, 4- and
      5-byte candidates that is not registered. */
  function ChooseChatId(chats: Registry, env: Env, buf: Bytes): (r: Result<string, ServerError>)
    requires |buf| == IdBytes
    ensures r.Ok? ==> r.value !in chats
    ensures r.Ok? ==> exists n :: ShortestId <= n <= IdBytes && r.value == Candidate(env, buf, n)
    ensures r.Err? <==> forall n :: ShortestId <= n <= IdBytes ==> Candidate(env, buf, n) in chats
  {
    if Candidate(env, buf, 3) !in chats then Ok(Candidate(env, buf, 3))
    else if Candidate(env, buf, 4) !in chats then Ok(Candidate(env, buf, 4))
    else if Candidate(env, buf, 5) !in chats then Ok(Candidate(env, buf, 5))
    else Err(ServiceUnavailable)
  }

  /** genChatId as the source writes it: a loop over growing prefixes of
      one random buffer that returns the first unregistered candidate. */
  method GenChatId(chats: Registry, env: Env, buf: Bytes) returns (r: Result<string, ServerError>)
    requires |buf| == IdBytes
    ensures r.Ok? ==> r.value !in chats
    ensures r.Ok? ==> exists n :: ShortestId <= n <= IdBytes && r.value == Candidate(env, buf, n)
                                 && (forall m :: ShortestId <= m < n ==> Candidate(env, buf, m) in chats)
    ensures r.Err? <==> forall n :: ShortestId <= n <= IdBytes ==> Candidate(env, buf, n) in chats
    ensures r == ChooseChatId(chats, env, buf)
  {
    var i := ShortestId;
    while i <= IdBytes
      invariant ShortestId <= i <= IdBytes + 1
      invariant forall m :: ShortestId <= m < i ==> Candidate(env, buf, m) in chats
    {
      var id := Candidate(env, buf, i);
      if id !in chats {
        return Ok(id);
      }
      i := i + 1;
    }
    return Err(ServiceUnavailable);
  }

  // ---------------------------------------------------------------------
  // startChat and joinChat

  /** A successful start: the registry after insertion and the new chat. */
  datatype Started = Started(chats: Registry, chat: Chat)

  /** scrypt over the UTF-8 password under a given salt. */
  function HashUnder(env: Env, password: string, salt: Bytes): Bytes
  {
    env.scrypt(env.utf8(password), salt)
  }

  /** The result of slowHash: the hash and the salt it was made under. */
  datatype Hashed = Hashed(hash: Bytes, salt: Bytes)

  /** slowHash(password, salt): the salt given is reused, and without one
      the `newSalt` random bytes become the salt; the hash is scrypt over the
      password under the salt used. */
  function SlowHash(env: Env, password: string, salt: Option<Bytes>, newSalt: Bytes): (r: Hashed)
    ensures salt.Some? ==> r.salt == salt.value
    ensures salt.None? ==> r.salt == newSalt
    ensures r.hash == HashUnder(env, password, r.salt)
  {
    var used := if salt.Some? then salt.value else newSalt;
    Hashed(HashUnder(env, password, used), used)
  }

  /** startChat: hash the password with a fresh salt, pick an id, and
      register the requester as the only member. `None` is a thrown
      error (no free id, or a field the hash cannot read). */
  function StartChat(chats: Registry, env: Env, ent: Entropy, conn: ConnId, f: Fields): (r: Option<Started>)
    requires WellSized(ent)
    ensures r.Some? <==> "name" in f && "password" in f && ChooseChatId(chats, env, ent.idBytes).Ok?
    ensures r.Some? ==>
      && r.value.chat.id !in chats
      && r.value.chats == chats[r.value.chat.id := r.value.chat]
      && r.value.chat.conns == [Member(f["name"], conn)]
      && r.value.chat.salt == ent.salt
      && r.value.chat.hash == HashUnder(env, f["password"], ent.salt)
  {
    if "name" !in f || "password" !in f then None
    else
      match ChooseChatId(chats, env, ent.idBytes)
      case Err(_) => None
      case Ok(id) =>
        var hashed := SlowHash(env, f["password"], None, ent.salt);
        var chat := Chat(id, hashed.hash, hashed.salt, [Member(f["name"], conn)]);
        Some(Started(chats[id := chat], chat))
  }

  /** The outcome of joinChat: admitted, refused with a status code, or a
      thrown error (reported as 500 by the connection handler). */
  datatype JoinOutcome =
    | Joined(chats: Registry, chat: Chat)
    | Refused(code: int, message: string)
    | Threw

  const NotFound := 404
  const Conflict := 409
  const Unauthorized := 401

  /** The conditions of joinChat, in the order the source checks them. */
  predicate ChatFound(chats: Registry, f: Fields)
  {
    "chatId" in f && f["chatId"] in chats
  }

  predicate NameTaken(chats: Registry, f: Fields)
    requires ChatFound(chats, f)
  {
    "name" in f && f["name"] in Names(chats[f["chatId"]].conns)
  }

  /** joinChat: 404 for an unknown chat, then 409 for a taken name, then
      401 when scrypt over the stored salt does not reproduce the stored
      hash; otherwise the requester is appended to the members. */
  function JoinChat(chats: Registry, env: Env, conn: ConnId, f: Fields): (r: JoinOutcome)
    ensures r == Refused(NotFound, "Chat not found") <==> !ChatFound(chats, f)
    ensures r.Refused? && r.code == Conflict <==> ChatFound(chats, f) && NameTaken(chats, f)
    ensures r.Refused? && r.code == Unauthorized <==>
      && ChatFound(chats, f) && "name" in f && !NameTaken(chats, f) && "password" in f
      && var chat := chats[f["chatId"]];
         var h := HashUnder(env, f["password"], chat.salt);
         |h| == |chat.hash| && h != chat.hash
    ensures r.Joined? <==>
      && ChatFound(chats, f) && "name" in f && !NameTaken(chats, f) && "password" in f
      && HashUnder(env, f["password"], chats[f["chatId"]].salt) == chats[f["chatId"]].hash
    ensures r.Joined? ==>
      var old_ := chats[f["chatId"]];
      && r.chat == old_.(conns := old_.conns + [Member(f["name"], conn)])
      && r.chats == chats[f["chatId"] := r.chat]
  {
    if "chatId" !in f || f["chatId"] !in chats then Refused(NotFound, "Chat not found")
    else
      var chat := chats[f["chatId"]];
      if "name" !in f then Threw
      else if Lookup(chat.conns, f["name"]).Some? then Refused(Conflict, "Member already has that name")
      else if "password" !in f then Threw
      else
        var h := SlowHash(env, f["password"], Some(chat.salt), []).hash;
        // timingSafeEqual throws when the lengths differ
        if |h| != |chat.hash| then Threw
        else if h != chat.hash then Refused(Unauthorized, "Invalid password")
        else
          var chat' := chat.(conns := chat.conns + [Member(f["name"], conn)]);
          Joined(chats[f["chatId"] := chat'], chat')
  }

  /** The 409 check comes before the password: a taken name is refused
      whatever password is offered. */
  lemma ConflictIgnoresPassword(chats: Registry, env: Env, conn: ConnId, f: Fields, password: string)
    requires ChatFound(chats, f) && NameTaken(chats, f)
    ensures JoinChat(chats, env, conn, f) == JoinChat(chats, env, conn, f["password" := password])
    ensures JoinChat(chats, env, conn, f).Refused?
  {
    var g := f["password" := password];
    assert ChatFound(chats, g) && NameTaken(chats, g);
  }

  /** The 404 check comes first: for an unknown chat neither the name nor
      the password matters. */
  lemma NotFoundIgnoresCredentials(chats: Registry, env: Env, conn: ConnId, f: Fields, name: string, password: string)
    requires !ChatFound(chats, f)
    ensures JoinChat(chats, env, conn, f) == JoinChat(chats, env, conn, f["name" := name]["password" := password])
  {
    var g := f["name" := name]["password" := password];
    assert !ChatFound(chats, g);
  }

  // ---------------------------------------------------------------------
  // joinChat across its await

  /** The part of joinChat before `await slowHash(...)`: `None` means the
      chat exists and the name is free, so the password is checked next. */
  function JoinPrecheck(chats: Registry, f: Fields): (r: Option<JoinOutcome>)
    ensures r.None? <==> ChatFound(chats, f) && "name" in f && !NameTaken(chats, f)
    ensures r == Some(Refused(NotFound, "Chat not found")) <==> !ChatFound(chats, f)
    ensures r.Some? && r.value.Refused? && r.value.code == Conflict <==> ChatFound(chats, f) && NameTaken(chats, f)
  {
    if "chatId" !in f || f["chatId"] !in chats then Some(Refused(NotFound, "Chat not found"))
    else if "name" !in f then Some(Threw)
    else if Lookup(chats[f["chatId"]].conns, f["name"]).Some? then Some(Refused(Conflict, "Member already has that name"))
    else None
  }

  /** `chat.conns.set(name, conn)` on a JavaScript Map: a new name is
      appended, a name already present keeps its place and gets the new
      connection; SetMemberKeepsOthers and SetMemberInPlace show that
      nothing else changes. */
  function SetMember(conns: seq<Member>, name: string, conn: ConnId): (r: seq<Member>)
    ensures Lookup(conns, name).None? ==> r == conns + [Member(name, conn)]
    ensures Lookup(conns, name).Some? ==> |r| == |conns|
    ensures Lookup(r, name) == Some(conn)
  {
    if conns == [] then [Member(name, conn)]
    else if conns[0].name == name then [Member(name, conn)] + conns[1..]
    else [conns[0]] + SetMember(conns[1..], name, conn)
  }

  /** `Map.set` leaves every other name's connection as it was. */
  lemma {:induction false} SetMemberKeepsOthers(conns: seq<Member>, name: string, conn: ConnId, other: string)
    requires other != name
    ensures Lookup(SetMember(conns, name, conn), other) == Lookup(conns, other)
  {
    if conns != [] && conns[0].name != name {
      SetMemberKeepsOthers(conns[1..], name, conn, other);
      assert SetMember(conns, name, conn)[1..] == SetMember(conns[1..], name, conn);
    }
  }

  lemma NamesCons(m: Member, ms: seq<Member>)
    ensures Names([m] + ms) == [m.name] + Names(ms)
  {
  }

  /** Setting a name that is already present keeps every name in its
      place: the list of names, in insertion order, does not change. */
  lemma {:induction false} SetMemberInPlace(conns: seq<Member>, name: string, conn: ConnId)
    requires Lookup(conns, name).Some?
    ensures Names(SetMember(conns, name, conn)) == Names(conns)
  {
    assert conns == [conns[0]] + conns[1..];
    NamesCons(conns[0], conns[1..]);
    if conns[0].name == name {
      NamesCons(Member(name, conn), conns[1..]);
    } else {
      assert Lookup(conns[1..], name).Some?;
      SetMemberInPlace(conns[1..], name, conn);
      NamesCons(conns[0], SetMember(conns[1..], name, conn));
    }
  }

  /** The part of joinChat after the await, as the source writes it: the
      password is checked against the chat found before, and the name is
      set without looking at the members again. */
  function JoinCommitAsWritten(chats: Registry, env: Env, conn: ConnId, f: Fields): (r: JoinOutcome)
    requires ChatFound(chats, f) && "name" in f
    ensures r.Joined? <==>
      "password" in f && HashUnder(env, f["password"], chats[f["chatId"]].salt) == chats[f["chatId"]].hash
    ensures r.Joined? ==>
      var before := chats[f["chatId"]];
      && r.chat == before.(conns := SetMember(before.conns, f["name"], conn))
      && r.chats == chats[f["chatId"] := r.chat]
  {
    var chat := chats[f["chatId"]];
    if "password" !in f then Threw
    else
      var h := SlowHash(env, f["password"], Some(chat.salt), []).hash;
      if |h| != |chat.hash| then Threw
      else if h != chat.hash then Refused(Unauthorized, "Invalid password")
      else
        var chat' := chat.(conns := SetMember(chat.conns, f["name"], conn));
        Joined(chats[f["chatId"] := chat'], chat')
  }

  /** The part after the await with the name checked again, as the 409
      response intends: a name taken while the hash was computed is
      refused, and otherwise the joiner is appended. */
  function JoinCommit(chats: Registry, env: Env, conn: ConnId, f: Fields): (r: JoinOutcome)
    requires ChatFound(chats, f) && "name" in f
    ensures NameTaken(chats, f) ==> r == Refused(Conflict, "Member already has that name")
    ensures r.Joined? ==>
      var before := chats[f["chatId"]];
      && f["name"] !in Names(before.conns)
      && r.chat == before.(conns := before.conns + [Member(f["name"], conn)])
      && r.chats == chats[f["chatId"] := r.chat]
  {
    if NameTaken(chats, f) then Refused(Conflict, "Member already has that name")
    else JoinCommitAsWritten(chats, env, conn, f)
  }

  /** Without another join in between, joinChat is its precheck followed
      by the corrected commit. */
  lemma JoinChatSplits(chats: Registry, env: Env, conn: ConnId, f: Fields)
    ensures JoinChat(chats, env, conn, f)
         == match JoinPrecheck(chats, f)
            case Some(o) => o
            case None => JoinCommit(chats, env, conn, f)
  {
    if JoinPrecheck(chats, f).None? {
      var before := chats[f["chatId"]];
      assert SetMember(before.conns, f["name"], conn) == before.conns + [Member(f["name"], conn)];
    }
  }

  /** The finding, as written: two joins under the same free name whose
      scrypt calls overlap both pass the precheck against the same
      registry; both are admitted, and the second silently takes over the
      first one's entry, so the first connection, which was told it had
      joined, can no longer be reached under its name. */
  lemma {:induction false} SameNameJoinsRace(chats: Registry, env: Env, first: ConnId, second: ConnId, f: Fields)
    requires JoinPrecheck(chats, f).None?
    requires "password" in f && HashUnder(env, f["password"], chats[f["chatId"]].salt) == chats[f["chatId"]].hash
    ensures var a := JoinCommitAsWritten(chats, env, first, f);
      && a.Joined? && ChatFound(a.chats, f)
      && var b := JoinCommitAsWritten(a.chats, env, second, f);
         && b.Joined?
         && Lookup(b.chat.conns, f["name"]) == Some(second)
         && |b.chat.conns| == |chats[f["chatId"]].conns| + 1
  {
    var cid := f["chatId"];
    var a := JoinCommitAsWritten(chats, env, first, f);
    assert a.chats[cid] == a.chat && a.chat.salt == chats[cid].salt && a.chat.hash == chats[cid].hash;
    assert Lookup(a.chat.conns, f["name"]).Some?;
  }

  /** The same two joins with the name checked again after the await: the
      first is admitted and the second is refused with 409. */
  lemma {:induction false} SameNameJoinRefused(chats: Registry, env: Env, first: ConnId, second: ConnId, f: Fields)
    requires JoinPrecheck(chats, f).None?
    requires "password" in f && HashUnder(env, f["password"], chats[f["chatId"]].salt) == chats[f["chatId"]].hash
    ensures var a := JoinCommit(chats, env, first, f);
      && a.Joined? && ChatFound(a.chats, f)
      && JoinCommit(a.chats, env, second, f) == Refused(Conflict, "Member already has that name")
  {
    var cid, name := f["chatId"], f["name"];
    var a := JoinCommit(chats, env, first, f);
    assert a.chats[cid].conns == chats[cid].conns + [Member(name, first)];
    assert Names(a.chats[cid].conns)[|chats[cid].conns|] == name;
  }

  // ---------------------------------------------------------------------
  // Connections

  /** What has become of a connection after its first message. A
      connection with no entry has not sent one yet. */
  datatype Phase = Relaying(chatId: string, name: string) | Closed

  datatype State = State(chats: Registry, phases: map<ConnId, Phase>)

  /** One frame written to a socket, and whether the socket is then closed. */
  datatype Out = Out(to: ConnId, msg: Msg, close: bool)

  const Ok200 := 200
  const BadRequest := 400
  const MethodNotAllowed := 405
  const InternalError := 500

  /** respond(conn, req, resp, close): a response that carries the
      request's correlation id. */
  function Respond(conn: ConnId, reqId: Option<string>, code: int, message: string, payload: Payload, close: bool): (o: Out)
    ensures o.msg.Resp? && o.msg.id == reqId && o.msg.code == code && o.to == conn && o.close == close
  {
    Out(conn, Resp(code, message, payload, reqId), close)
  }

  /** send(conn, msg, close) of a server-made response: no id. */
  function Notice(conn: ConnId, code: int, message: string, close: bool): Out
  {
    Out(conn, Resp(code, message, NoPayload, None), close)
  }

  /** The connection handler's catch: 500 and close. */
  function Fail(s: State, conn: ConnId): (r: (State, seq<Out>))
    ensures r.0.chats == s.chats
    ensures r.0.phases == s.phases[conn := Closed]
    ensures |r.1| == 1 && r.1[0].to == conn && r.1[0].close
    ensures r.1[0].msg.Resp? && r.1[0].msg.code == InternalError && r.1[0].msg.id.None?
  {
    (s.(phases := s.phases[conn := Closed]), [Notice(conn, InternalError, "Internal Server Error", true)])
  }

  /** handleConn on the first frame of a connection: exactly one response
      goes back to it; it is closed unless admitted, in which case the
      response is 200 and the connection is the one registered under its
      name; a refused connection changes no chat, and no other connection
      is touched. */
  function First(s: State, env: Env, ent: Entropy, conn: ConnId, raw: Raw): (r: (State, seq<Out>))
    requires WellSized(ent)
    ensures |r.1| == 1 && r.1[0].to == conn && r.1[0].msg.Resp?
    ensures conn in r.0.phases && r.0.phases == s.phases[conn := r.0.phases[conn]]
    ensures r.1[0].close <==> r.0.phases[conn].Closed?
    ensures r.0.phases[conn].Closed? ==> r.0.chats == s.chats && r.1[0].msg.code != Ok200
    ensures r.0.phases[conn].Relaying? ==>
      && r.1[0].msg.code == Ok200
      && r.0.phases[conn].chatId in r.0.chats
      && Lookup(r.0.chats[r.0.phases[conn].chatId].conns, r.0.phases[conn].name) == Some(conn)
  {
    var closed := s.(phases := s.phases[conn := Closed]);
    match raw
    case Unparsable =>
      (closed, [Respond(conn, None, BadRequest, "Invalid message", NoPayload, true)])
    case Parsed(Resp(_, _, _, id)) =>
      (closed, [Respond(conn, id, BadRequest, "Expected start or join request", NoPayload, true)])
    case Parsed(Req(kind, data, id)) =>
      if kind == StartKind then
        if data.None? then Fail(s, conn)
        else
          match StartChat(s.chats, env, ent, conn, data.value)
          case None => Fail(s, conn)
          case Some(st) =>
            (State(st.chats, s.phases[conn := Relaying(st.chat.id, data.value["name"])]),
             [Respond(conn, id, Ok200, "Connected", ChatIdPayload(st.chat.id), false)])
      else if kind == JoinKind then
        if data.None? then Fail(s, conn)
        else
          match JoinChat(s.chats, env, conn, data.value)
          case Threw => Fail(s, conn)
          case Refused(code, message) =>
            (closed, [Respond(conn, id, code, message, NoPayload, true)])
          case Joined(chats', chat) =>
            var name := data.value["name"];
            LookupAppend(s.chats[data.value["chatId"]].conns, Member(name, conn), name);
            (State(chats', s.phases[conn := Relaying(data.value["chatId"], name)]),
             [Respond(conn, id, Ok200, "Connected", MembersPayload(Without(Names(chat.conns), name)), false)])
      else
        (closed, [Respond(conn, id, BadRequest, "Expected start or join request", NoPayload, true)])
  }

  /** forwardMessage: deliver to the member named `to`, stamped with the
      sender's name; 404 to the sender when there is no such member. A
      request without `data` makes the source throw inside its listener,
      which only logs, so nothing is sent. */
  function Forward(chat: Chat, conn: ConnId, name: string, kind: string, data: Option<Fields>, id: Option<string>): (outs: seq<Out>)
    ensures data.None? ==> outs == []
    ensures data.Some? && ("to" !in data.value || data.value["to"] !in Names(chat.conns)) ==>
      outs == [Notice(conn, NotFound, "Member not found", false)]
    ensures data.Some? && "to" in data.value && data.value["to"] in Names(chat.conns) ==>
      && |outs| == 1
      && Member(data.value["to"], outs[0].to) in chat.conns
      && !outs[0].close
      && outs[0].msg.Req? && outs[0].msg.kind == kind && outs[0].msg.id == id
      && outs[0].msg.data == Some(data.value["from" := name])
  {
    if data.None? then []
    else
      var f := data.value;
      if "to" !in f then [Notice(conn, NotFound, "Member not found", false)]
      else
        match Lookup(chat.conns, f["to"])
        case None => [Notice(conn, NotFound, "Member not found", false)]
        case Some(peer) => [Out(peer, Req(kind, Some(f["from" := name]), id), false)]
  }

  /** handleMessage in the relay phase: only candidate, offer and answer
      are forwarded; other kinds get 405, an unparsable frame 400, and
      the connection stays open either way. */
  function Relay(chat: Chat, conn: ConnId, name: string, raw: Raw): (outs: seq<Out>)
    ensures raw.Unparsable? ==> outs == [Notice(conn, BadRequest, "Invalid message", false)]
    ensures raw.Parsed? && !(raw.msg.Req? && IsRelayKind(raw.msg.kind)) ==>
      outs == [Notice(conn, MethodNotAllowed, "Invalid message type", false)]
    ensures forall o :: o in outs ==> !o.close
  {
    match raw
    case Unparsable => [Notice(conn, BadRequest, "Invalid message", false)]
    case Parsed(msg) =>
      if msg.Req? && IsRelayKind(msg.kind) then Forward(chat, conn, name, msg.kind, msg.data, msg.id)
      else [Notice(conn, MethodNotAllowed, "Invalid message type", false)]
  }

  /** One frame received on connection `conn`. Only a first frame changes
      anything; a closed connection gets no answer; every connection but
      `conn` keeps its phase, and only `conn` is ever closed. */
  function Receive(s: State, env: Env, ent: Entropy, conn: ConnId, raw: Raw): (r: (State, seq<Out>))
    requires WellSized(ent)
    ensures conn in s.phases ==> r.0 == s
    ensures conn in s.phases && s.phases[conn].Closed? ==> r.1 == []
    ensures conn in r.0.phases
    ensures forall c :: c in s.phases && c != conn ==> c in r.0.phases && r.0.phases[c] == s.phases[c]
    ensures forall o :: o in r.1 && o.close ==> o.to == conn
  {
    if conn !in s.phases then First(s, env, ent, conn, raw)
    else
      match s.phases[conn]
      case Closed => (s, [])
      case Relaying(cid, name) =>
        if cid in s.chats then (s, Relay(s.chats[cid], conn, name, raw)) else (s, [])
  }

  // ---------------------------------------------------------------------
  // Properties of the protocol

  /** The state the protocol keeps: every chat is stored under its own id
      with unique member names, and every relaying connection is the one
      registered under its name in an existing chat. */
  ghost predicate Valid(s: State)
  {
    && (forall cid :: cid in s.chats ==> s.chats[cid].id == cid && Unique(Names(s.chats[cid].conns)))
    && (forall c :: c in s.phases && s.phases[c].Relaying? ==>
          && s.phases[c].chatId in s.chats
          && Lookup(s.chats[s.phases[c].chatId].conns, s.phases[c].name) == Some(c))
  }

  /** Chats are never removed, their id, hash and salt never change, and
      members are only ever appended. */
  ghost predicate Grows(s: State, s': State)
  {
    forall cid :: cid in s.chats ==>
      && cid in s'.chats
      && s'.chats[cid].id == s.chats[cid].id
      && s'.chats[cid].hash == s.chats[cid].hash
      && s'.chats[cid].salt == s.chats[cid].salt
      && s.chats[cid].conns <= s'.chats[cid].conns
  }

  lemma {:induction false} LookupAppend(conns: seq<Member>, m: Member, name: string)
    requires m.name !in Names(conns)
    ensures Lookup(conns + [m], name) == if name == m.name then Some(m.conn) else Lookup(conns, name)
  {
    if conns == [] {
    } else {
      assert (conns + [m])[1..] == conns[1..] + [m];
      assert Names(conns) == [conns[0].name] + Names(conns[1..]);
      LookupAppend(conns[1..], m, name);
    }
  }

  lemma UniqueAppend(xs: seq<string>, x: string)
    requires Unique(xs) && x !in xs
    ensures Unique(xs + [x])
  {
  }

  /** A successful start keeps the registry well formed. */
  lemma StartPreservesValid(s: State, env: Env, ent: Entropy, conn: ConnId, f: Fields, id: Option<string>)
    requires WellSized(ent) && Valid(s) && conn !in s.phases
    ensures Valid(Receive(s, env, ent, conn, Parsed(Req(StartKind, Some(f), id))).0)
    ensures Grows(s, Receive(s, env, ent, conn, Parsed(Req(StartKind, Some(f), id))).0)
  {
    var r := StartChat(s.chats, env, ent, conn, f);
    if r.Some? {
      var chat := r.value.chat;
      assert Names(chat.conns) == [f["name"]];
      assert Lookup(chat.conns, f["name"]) == Some(conn);
      var s' := Receive(s, env, ent, conn, Parsed(Req(StartKind, Some(f), id))).0;
      assert s' == State(s.chats[chat.id := chat], s.phases[conn := Relaying(chat.id, f["name"])]);
      forall c | c in s'.phases && s'.phases[c].Relaying?
        ensures s'.phases[c].chatId in s'.chats
        ensures Lookup(s'.chats[s'.phases[c].chatId].conns, s'.phases[c].name) == Some(c)
      {
        if c != conn {
          assert s'.phases[c] == s.phases[c];
        }
      }
    }
  }

  /** A successful join keeps the registry well formed: the 409 check is
      what keeps member names unique. */
  lemma JoinPreservesValid(s: State, env: Env, ent: Entropy, conn: ConnId, f: Fields, id: Option<string>)
    requires WellSized(ent) && Valid(s) && conn !in s.phases
    ensures Valid(Receive(s, env, ent, conn, Parsed(Req(JoinKind, Some(f), id))).0)
    ensures Grows(s, Receive(s, env, ent, conn, Parsed(Req(JoinKind, Some(f), id))).0)
  {
    var r := JoinChat(s.chats, env, conn, f);
    if r.Joined? {
      var cid := f["chatId"];
      var name := f["name"];
      var before := s.chats[cid];
      var m := Member(name, conn);
      assert name !in Names(before.conns);
      assert Names(r.chat.conns) == Names(before.conns) + [name];
      UniqueAppend(Names(before.conns), name);
      var s' := Receive(s, env, ent, conn, Parsed(Req(JoinKind, Some(f), id))).0;
      assert s'.chats == s.chats[cid := r.chat];
      forall c | c in s'.phases && s'.phases[c].Relaying?
        ensures s'.phases[c].chatId in s'.chats
        ensures Lookup(s'.chats[s'.phases[c].chatId].conns, s'.phases[c].name) == Some(c)
      {
        if c != conn {
          var p := s.phases[c];
          assert s'.phases[c] == p;
          if p.chatId == cid {
            assert Lookup(before.conns, p.name) == Some(c);
            LookupAppend(before.conns, m, p.name);
          }
        }
      }
    }
  }

  /** Every step keeps the registry well formed, and only ever grows it. */
  lemma ReceivePreservesValid(s: State, env: Env, ent: Entropy, conn: ConnId, raw: Raw)
    requires WellSized(ent) && Valid(s)
    ensures Valid(Receive(s, env, ent, conn, raw).0)
    ensures Grows(s, Receive(s, env, ent, conn, raw).0)
  {
    if conn !in s.phases && raw.Parsed? && raw.msg.Req? && raw.msg.data.Some? {
      if raw.msg.kind == StartKind {
        StartPreservesValid(s, env, ent, conn, raw.msg.data.value, raw.msg.id);
      } else if raw.msg.kind == JoinKind {
        JoinPreservesValid(s, env, ent, conn, raw.msg.data.value, raw.msg.id);
      }
    }
  }

  /** After a successful join the `members` list sent back is exactly the
      membership before the join, in insertion order: every current
      member except the joiner. */
  lemma JoinMembersAreOthers(s: State, env: Env, ent: Entropy, conn: ConnId, id: Option<string>, f: Fields)
    requires WellSized(ent)
    requires conn !in s.phases
    requires JoinChat(s.chats, env, conn, f).Joined?
    ensures Receive(s, env, ent, conn, Parsed(Req(JoinKind, Some(f), id))).1
      == [Respond(conn, id, Ok200, "Connected", MembersPayload(Names(s.chats[f["chatId"]].conns)), false)]
  {
    var before := s.chats[f["chatId"]];
    var chat := JoinChat(s.chats, env, conn, f).chat;
    assert Names(chat.conns) == Names(before.conns) + [f["name"]];
    WithoutAppended(Names(before.conns), f["name"]);
  }

  /** A join refused with a status code answers with that code, echoing
      the request's id, closes the connection and changes no chat. */
  lemma JoinRefusedCloses(s: State, env: Env, ent: Entropy, conn: ConnId, f: Fields, id: Option<string>)
    requires WellSized(ent) && conn !in s.phases
    requires JoinChat(s.chats, env, conn, f).Refused?
    ensures var o := JoinChat(s.chats, env, conn, f);
      Receive(s, env, ent, conn, Parsed(Req(JoinKind, Some(f), id)))
      == (s.(phases := s.phases[conn := Closed]), [Respond(conn, id, o.code, o.message, NoPayload, true)])
  {
  }

  /** A chat started with a password admits a second connection that
      presents the same password under another name, and tells it the
      starter's name. */
  lemma StartThenJoinAdmits(s: State, env: Env, ent: Entropy, ent': Entropy, starter: ConnId, joiner: ConnId,
                            name: string, name': string, password: string, id: Option<string>, id': Option<string>)
    requires WellSized(ent) && WellSized(ent')
    requires starter !in s.phases && joiner !in s.phases && starter != joiner && name != name'
    requires ChooseChatId(s.chats, env, ent.idBytes).Ok?
    ensures var (s1, outs1) := Receive(s, env, ent, starter, Parsed(Req(StartKind, Some(map["name" := name, "password" := password]), id)));
      && outs1[0].msg.payload.ChatIdPayload?
      && var cid := outs1[0].msg.payload.chatId;
         var (s2, outs2) := Receive(s1, env, ent', joiner, Parsed(Req(JoinKind, Some(map["chatId" := cid, "name" := name', "password" := password]), id')));
         && outs2 == [Respond(joiner, id', Ok200, "Connected", MembersPayload([name]), false)]
         && s2.phases[joiner] == Relaying(cid, name')
  {
    var f := map["name" := name, "password" := password];
    var st := StartChat(s.chats, env, ent, starter, f).value;
    var cid := st.chat.id;
    var s1 := Receive(s, env, ent, starter, Parsed(Req(StartKind, Some(f), id))).0;
    assert s1.chats[cid] == st.chat;
    var g := map["chatId" := cid, "name" := name', "password" := password];
    assert Names(st.chat.conns) == [name];
    assert JoinChat(s1.chats, env, joiner, g).Joined?;
    JoinMembersAreOthers(s1, env, ent', joiner, id', g);
  }

  /** The first frame decides admission: anything but a `start` or `join`
      request is answered 400 and the connection is closed, with nothing
      registered. */
  lemma FirstMustBeStartOrJoin(s: State, env: Env, ent: Entropy, conn: ConnId, raw: Raw)
    requires WellSized(ent) && conn !in s.phases
    requires !(raw.Parsed? && raw.msg.Req? && (raw.msg.kind == StartKind || raw.msg.kind == JoinKind))
    ensures var (s', outs) := Receive(s, env, ent, conn, raw);
      && s'.chats == s.chats
      && s'.phases == s.phases[conn := Closed]
      && |outs| == 1 && outs[0].to == conn && outs[0].close
      && outs[0].msg.Resp? && outs[0].msg.code == BadRequest
  {
  }

  /** Every response to a first message that the handler produces itself
      (all but the 500 of a thrown error) echoes the request's id. */
  lemma FirstResponsesEchoId(s: State, env: Env, ent: Entropy, conn: ConnId, msg: Msg)
    requires WellSized(ent) && conn !in s.phases
    ensures var outs := Receive(s, env, ent, conn, Parsed(msg)).1;
      forall o :: o in outs && o.msg.code != InternalError ==> o.msg.id == msg.id
  {
  }

  /** In the relay phase nothing in the server's state changes, whatever
      arrives; a message of any other kind is refused with 405 without
      closing; and a forwarded message reaches the member named `to`
      with `from` set to the sender's name and every other field intact. */
  lemma RelayPhase(s: State, env: Env, ent: Entropy, conn: ConnId, raw: Raw)
    requires WellSized(ent) && Valid(s)
    requires conn in s.phases && s.phases[conn].Relaying?
    ensures var (s', outs) := Receive(s, env, ent, conn, raw);
      && s' == s
      && (forall o :: o in outs ==> !o.close)
      && (raw.Parsed? && !(raw.msg.Req? && IsRelayKind(raw.msg.kind)) ==>
            outs == [Notice(conn, MethodNotAllowed, "Invalid message type", false)])
      && (raw.Parsed? && raw.msg.Req? && IsRelayKind(raw.msg.kind) && raw.msg.data.Some? ==>
            var f := raw.msg.data.value;
            var chat := s.chats[s.phases[conn].chatId];
            if "to" in f && f["to"] in Names(chat.conns) then
              && |outs| == 1 && Member(f["to"], outs[0].to) in chat.conns
              && outs[0].msg.data.Some?
              && outs[0].msg.data.value["from"] == s.phases[conn].name
              && (forall k :: k in f && k != "from" ==> k in outs[0].msg.data.value && outs[0].msg.data.value[k] == f[k])
              && outs[0].msg.data.value.Keys == f.Keys + {"from"}
            else outs == [Notice(conn, NotFound, "Member not found", false)])
  {
  }
}

=== FILE: wire.dfy ===
/** The JSON signaling envelope exchanged between clients and the relay,
    after parsing. A message object that has no `type` behaves like a
    request whose kind matches none of the known kinds. */
module Wire {
  import opened Common

  /** The flat string fields of a request's `data` object. */
  type Fields = map<string, string>

  /** The `data` of a response. */
  datatype Payload =
    | NoPayload
    | ChatIdPayload(chatId: string)
    | MembersPayload(members: seq<string>)

  /** A parsed message: a request `{type, data, id}` or a response
      `{code, message, data, id}`. Both carry the correlation `id`. */
  datatype Msg =
    | Req(kind: string, data: Option<Fields>, id: Option<string>)
    | Resp(code: int, message: string, payload: Payload, id: Option<string>)

  /** A frame read from a socket: either it failed `JSON.parse` or it
      yielded a message. */
  datatype Raw = Unparsable | Parsed(msg: Msg)

  const StartKind := "start"
  const JoinKind := "join"
  const CandidateKind := "candidate"
  const OfferKind := "offer"
  const AnswerKind := "answer"

  /** The kinds relayed between peers once a connection is admitted. */
  predicate IsRelayKind(kind: string)
  {
    kind == CandidateKind || kind == OfferKind || kind == AnswerKind
  }
}
